=== FILE: README.md ===
# Unzipper + Zipper, modelled in Dafny

`unzipper.php` is a single-file PHP utility. It is dropped into a web
directory and does two things:

- **Extracting** (`class Unzipper`). The constructor lists the script's
  directory and keeps the entries whose extension is exactly `zip`, `gz` or
  `rar`. `prepareExtraction` works out the extraction path: the local
  directory, or `./<destination>` beneath it, which it creates when it is
  missing. It then calls `extract` only for an archive on that list.
  `extract` dispatches on the extension to one of three handlers:
  - the zip handler and the rar handler each try three checks in order (extension
    loaded, archive opens, destination writeable);
  - the gzip handler inflates `name.gz` to `dest/name`, and when that output is a
    `.tar` it extracts the tar in turn and deletes it.
- **Packing** (`class Zipper`). `zipDir` adds an empty-directory marker for
  the source directory's own name (unless the source is `.`). It then walks the
  tree depth-first in `readdir` order with `folderToZip`, which adds files and
  directory markers under their path minus an "exclusive prefix". On the way it
  records skipped paths:
  - files whose path contains the output prefix, is listed in `$skipFile`, or
    is named `.DS_Store`;
  - directories listed in `$skipDir`.

  The pseudo-entries `.` and `..` and the script itself are passed over silently.

The model is in six modules:

| file | module | contents |
|---|---|---|
| `php_strings.dfy` | `PhpStrings` | `empty()`, `strpos() !== false`, `substr()`, `basename()`, `dirname()`, and `pathinfo()`'s extension and filename, with PHP 8 semantics |
| `reporting.dfy` | `Reporting` | the status slot as a value `Info/Success/Error(Message)`, the exact wording of every message (`Text`), and the "first failing check wins" ladder every handler follows |
| `zipper_walk.dfy` | `ZipperWalk` | the filesystem as a tree (`File`, `Dir`, `Other`, children in `readdir` order), and `folderToZip` as a pure function returning the archive calls and the skipped paths |
| `zipper_paths.dfy` | `ZipperPaths` | whole-tree properties of the walk: names, exclusion rules, listed directories pruned, markers after contents |
| `zipper.dfy` | `Zipper` | `zipDir`, the script's configuration, and the exclusive-prefix finding with its corrected version |
| `unzipper.dfy` | `Unzipper` | constructor, `prepareExtraction`, `extract` and the three handlers |

Some design choices:

- The global `Unzipper::$status` is threaded by value. Every operation takes
  the current slot and returns the new one.
- What the handlers ask of PHP is given as oracle booleans:
  - `Runtime` records which extensions are loaded;
  - `Disk` records whether the archive opens, the destination is writeable,
    the output exists, the tar extraction succeeds, and the extraction path is
    already a directory.
- What the handlers do to the disk is returned as an ordered list of `Effect`s.
- Messages are symbolic (`Message`). `Reporting.Text` maps each one to the
  string the script writes.

## Model

| member | source | states |
|---|---|---|
| PhpStrings.Contains | unzipper.php:278 | `strpos($haystack, $needle) !== false`; no contract of its own, see `ContainsIffOccurs` |
| PhpStrings.Substr | unzipper.php:275 | `substr($s, $start)`: for a start within the string, the string is its first `start` characters followed by the result; past the end the result is "" |
| PhpStrings.Basename | unzipper.php:318 | `basename()`; no contract of its own, see `BasenameFacts`, `AfterLastFacts`, `TrimFacts` and `BasenameOfChild` |
| PhpStrings.Dirname | unzipper.php:317 | `dirname()` as `pathinfo` reports it; no contract of its own, see `DirnameFacts` and `DirnameBasenameOfJoin` |
| PhpStrings.Extension | unzipper.php:65 | `pathinfo($f, PATHINFO_EXTENSION)`; no contract of its own, see `FilenameExtensionSplit` and `NameParts` |
| PhpStrings.Filename | unzipper.php:177 | `pathinfo($f, PATHINFO_FILENAME)`; no contract of its own, see `FilenameExtensionSplit` and `NameParts` |
| PhpStrings.ContainsIffOccurs | unzipper.php:278 | the prefix test `strpos($filePath, $prefix) !== false` holds exactly when the prefix occurs at some offset of the path (an empty prefix always does) |
| PhpStrings.FilenameExtensionSplit | unzipper.php:177 | `pathinfo` filename and extension cut the basename at its last '.': joined with '.' they give the basename back, and the extension holds no '.'; with no '.' the filename is the whole basename and the extension is empty |
| PhpStrings.AfterLastFacts | unzipper.php:316-318 | the part `basename`/`pathinfo` keep after the last separator is a suffix free of the separator, and the separator precedes it whenever it is shorter than the string |
| PhpStrings.TrimFacts | unzipper.php:316-318 | `basename`'s trailing-slash strip gives a prefix not ending in '/', and what it drops is all '/' |
| PhpStrings.BasenameFacts | unzipper.php:318 | a basename contains no '/' and is no longer than the trimmed path |
| PhpStrings.NameParts | unzipper.php:65 | a plain name `stem.ext` (no '/', `ext` without '.') has extension `ext` and filename `stem` |
| PhpStrings.BasenameOfChild | unzipper.php:273 | the basename of `folder/f` is `f` for a plain non-empty name `f` |
| PhpStrings.DirnameBasenameOfJoin | unzipper.php:316-318 | `dirname` and `basename` of `dir/f` are `dir` and `f` when `dir` does not end in '/' and `f` is a plain non-empty name |
| PhpStrings.DirnameFacts | unzipper.php:317 | for every path, `dirname` is "" only for "", "/" for a path of slashes only, "." for a single component, and otherwise "/" or a proper prefix of the path that does not end in '/', is followed by '/', and leaves room for that '/' and the basename; with `t` the path without trailing slashes and `b` its basename, `b` is shorter than `t`, `dirname` is "/" exactly when `t` holds only '/' before `b`, and otherwise `dirname` is a prefix of `t` followed by nothing but '/' up to `b`, which pins it down |
| PhpStrings.DirnameSlashed | unzipper.php:317 | the case of `DirnameFacts` where the trimmed path holds a '/': the same clauses, stated for the trimmed path, the basename and the dirname as given values |
| PhpStrings.HeadCases | unzipper.php:317 | the head before the basename trimmed of trailing slashes is empty exactly when the head is all '/', and otherwise it is a prefix of the path followed only by '/' up to the basename |
| PhpStrings.IsEmpty | unzipper.php:91 | `empty($destination)` for a string, true for "" and "0"; no contract of its own, see `Unzipper.ExtractionPath` and `Unzipper.PrepareExtraction` |
| Reporting.Text | unzipper.php:73-75 | the exact wording of every status message (lines 73, 75, 140-157, 173-201, 217-234 and 332); no contract of its own, the handlers' contracts name the `Message` and this function gives its words |
| Reporting.Ladder | unzipper.php:136-159 | a handler's status is Success with its own message exactly when every check passes, and otherwise an Error carrying the message of the first failing check, all earlier checks having passed |
| Reporting.LadderOfThree | unzipper.php:213-236 | a three-check ladder, rung by rung: the first failure reports its message, else success |
| ZipperWalk.IsPseudo | unzipper.php:272 | the entries `.`, `..` and the script's own name that the walk passes over; no contract of its own, see `SilentEntry` and `Zipper.ScriptRules` |
| ZipperWalk.FileExcluded | unzipper.php:278 | the three file rules: the prefix occurs in the path, the path is in the file skip list, or the name is `.DS_Store`; no contract of its own, see `FileRule`, `ExcludedFile`, `KeptFile` and `Zipper.ScriptRules` |
| ZipperWalk.DirExcluded | unzipper.php:287 | the directory rule: the path is in the directory skip list; no contract of its own, see `SkippedDirRule`, `KeptDirRule` and `Zipper.ScriptRules` |
| ZipperWalk.FolderToZip | unzipper.php:266-300 | `folderToZip($folder, $zip, $excl)` over a directory's entries in `readdir` order; no contract of its own, see `WalkConcat`, the per-entry rules below and the `ZipperPaths` lemmas |
| ZipperWalk.Visit | unzipper.php:272-296 | the archive calls and skipped paths of one `readdir` entry; no contract of its own, see `SilentEntry`, `FileRule`, `SkippedDirRule` and `KeptDirRule` |
| ZipperWalk.WalkConcat | unzipper.php:270 | the walk follows enumeration order: walking a listing in two parts gives the archive calls and skipped paths of the first part followed by those of the second |
| ZipperWalk.SilentEntry | unzipper.php:272 | `.`, `..`, the script's own name and entries that are neither file nor directory leave no archive call and no skipped record, wherever they occur in a listing |
| ZipperWalk.FileRule | unzipper.php:276-284 | a file is added under its path minus the exclusive prefix exactly when none of the three file rules applies; otherwise its path is recorded as skipped once and nothing is added; neighbours are unaffected |
| ZipperWalk.SkippedDirRule | unzipper.php:285-290 | a listed directory is recorded as skipped once and contributes nothing else, whatever its subtree holds |
| ZipperWalk.KeptDirRule | unzipper.php:291-295 | an unlisted directory contributes its subtree's walk followed by its own empty-directory marker, and its subtree's skipped paths |
| ZipperWalk.PruneInvisible | unzipper.php:270-272 | removing every `.`, `..` and script entry from every directory of the tree changes neither the archive calls nor the skipped paths, and the pruned tree holds none |
| ZipperPaths.WalkNames | unzipper.php:273-275 | every archive call stands for a path beneath the walked folder, named by that path with the first `excl` characters cut; every skipped path lies beneath the folder |
| ZipperPaths.WalkFilters | unzipper.php:276-290 | every added file passed the file rules, every marker's directory is unlisted, and nothing emitted is a pseudo-entry; every skipped path failed a file rule or a directory rule |
| ZipperPaths.WalkAvoidsSkippedDirs | unzipper.php:285-295 | no archive call and no skipped path lies strictly beneath a listed directory inside the walked folder |
| ZipperPaths.WalkMarkers | unzipper.php:291-295 | each directory's empty marker comes after every entry lying beneath that directory |
| ZipperPaths.SiblingsDisjoint | unzipper.php:273 | paths beneath two different children of one folder are disjoint |
| Zipper.ScriptConfig | unzipper.php:17-32 | the configuration at the top of the script: prefix `swiss-smile`, file skip list `./.user.ini`, the four directory skip paths, and the script's name; no contract of its own, see `Zipper.ScriptRules` |
| Zipper.ScriptRules | unzipper.php:17-32 | under the script's configuration the script itself is passed over, `./.user.ini` and any path holding `swiss-smile` are skipped as files, and a directory is skipped exactly when it is one of `./.quarantine`, `./.tmb`, `./.well-known` and `./wp-content/updraft` |
| Zipper.ZipDir | unzipper.php:314-333 | `zipDir($sourcePath, $outZipPath)`; no contract of its own, see `ZipDirShape`, `ZipDirNames`, `ZipDirUnderOwnName` and `SiteExample` |
| Zipper.ExclusiveLength | unzipper.php:325-329 | the number of characters cut from every visited path: 0 when the source equals its basename, else the length of its dirname plus '/'; no contract of its own, see `FixedAgreesWithOriginal` and the finding below |
| Zipper.ZipDirShape | unzipper.php:320-332 | a packing run starts with the marker for the source's basename exactly when the source is not ".", continues with the walk under the computed exclusive length, records the walk's skipped paths, and always reports success naming the output |
| Zipper.ZipDirNames | unzipper.php:322-329 | apart from the top marker, every archive call stands for a path beneath the source, named by it with the exclusive prefix cut |
| Zipper.ZipDirUnderOwnName | unzipper.php:316-329 | when the source is its own basename, or exactly its dirname, '/', and basename, every archive name is the source directory's own name or begins with it and '/' |
| Zipper.DoubleSlashSourceMisplacesEntries | unzipper.php:316-329 | for the source "a//b" holding file `x`, the archive holds the marker "b" but the file as "/b/x", outside the "b/" folder |
| Zipper.RootChildLosesFirstLetter | unzipper.php:316-329 | for the source "/foo" holding file `x`, the archive holds the marker "foo" but the file as "oo/x" |
| Zipper.ZipDirFixedUnderOwnName | unzipper.php:316-329 | with the prefix cut where the directory's own name begins, every archive name is that name or begins with it and '/', for every source path |
| Zipper.FixedAgreesWithOriginal | unzipper.php:325-329 | wherever the original exclusive length is right, the corrected one equals it |
| Zipper.SiteExample | unzipper.php:314-333 | packing `./site` holding `a.txt`, `cache/x.tmp` and an empty `logs`, with `./site/a.txt` and `./site/cache` listed, yields the markers "site" and "site/logs" only, skips both listed paths in visiting order, and reports success |
| Unzipper.IsArchiveName | unzipper.php:65 | the constructor's filter: extension exactly `zip`, `gz` or `rar`; no contract of its own, see `Candidates` and `NameParts` |
| Unzipper.Candidates | unzipper.php:63-69 | the kept entries are exactly the listing's entries with extension `zip`, `gz` or `rar`, each as often as it occurs in the listing |
| Unzipper.CandidatesConcat | unzipper.php:64-68 | the filter keeps listing order: filtering two parts gives the filtered parts one after the other |
| Unzipper.CandidatesEmpty | unzipper.php:72 | the kept list is non-empty exactly when some listing entry has an archive extension |
| Unzipper.Construct | unzipper.php:60-78 | the object reads "."; if `opendir` fails the list stays empty and the status is untouched; otherwise the list is the filtered listing and the status is an info message chosen by whether that list is empty |
| Unzipper.ConstructInfo | unzipper.php:72-76 | the constructor reports archives found exactly when some entry has an archive extension, and the zipping-only message exactly when none has |
| Unzipper.ExtractZipArchive | unzipper.php:136-159 | the zip status is the ladder "ZipArchive present, archive opens, destination writeable", and the archive is extracted into the destination exactly on success |
| Unzipper.ExtractRarArchive | unzipper.php:213-236 | the rar status is the ladder "RarArchive present, archive opens, destination writeable", and the archive's entries are extracted exactly on success |
| Unzipper.ExtractGzipFile | unzipper.php:169-203 | `extractGzipFile`: the `.gz` steps into `GzOutput(archive, dest)`; no contract of its own, see `InflateInto`, `InflateIntoLadder` and `TarGzRequest` |
| Unzipper.GzOutput | unzipper.php:177-179 | the file a `.gz` archive is inflated into; no contract of its own, see `GzOutputRestoresName`, `TarGzIsTarOutput` and `PlainGzIsNotTar` |
| Unzipper.InflateInto | unzipper.php:172-202 | with no zlib nothing happens; otherwise the effects are a prefix of: inflate the archive, extract the output as a tar, delete the output — each at most once and in that order; the tar extraction happens exactly when the output exists and has extension `tar`; the output is deleted exactly when the status is the tar success |
| Unzipper.InflateIntoLadder | unzipper.php:172-202 | the gzip status is the ladder "zlib present, output exists", and its success message is the tar one exactly when the output is a tar whose extraction succeeded |
| Unzipper.GzOutputRestoresName | unzipper.php:177-179 | the inflated file's path, with the stripped extension put back, is the archive's basename under the destination |
| Unzipper.TarGzIsTarOutput | unzipper.php:177-192 | `stem.tar.gz` inflates to `dest/stem.tar`, which has extension `tar`, so the tar step follows |
| Unzipper.PlainGzIsNotTar | unzipper.php:177-192 | a plain `stem.gz` inflates to `dest/stem`, which has no `tar` extension, so no tar step follows |
| Unzipper.Extract | unzipper.php:114-128 | an archive whose extension is not `zip`, `gz` or `rar` leaves the status and the disk untouched; otherwise the status becomes Success or Error, and the handler is chosen by the extension |
| Unzipper.ExtractTouches | unzipper.php:114-128 | every effect of `extract` names the given archive, the destination, or a path beginning with the destination and '/' (a string prefix, so an inflated name `..` still counts), and none creates a directory |
| Unzipper.ExtractionPath | unzipper.php:91-95 | an `empty()` destination (including "0") extracts into the local directory; any other extracts into the local directory, '/', and the destination |
| Unzipper.PrepareExtraction | unzipper.php:88-104 | the extraction directory is created, first, exactly when the destination is not empty and not already a directory; an archive not on the list leaves the status unchanged and its only effect is that optional creation; a listed archive is handed to `extract` with the extraction path: the status is `extract`'s, and the effects are exactly `extract`'s, preceded by the creation when it is due and by nothing otherwise |
| Unzipper.PrepareTouches | unzipper.php:96-103 | every effect is the creation of the extraction directory itself, or concerns a listed archive and names the extraction path or a path beginning with it and '/' |
| Unzipper.ExtractionGate | unzipper.php:101-103 | on an object the constructor built, the status changes exactly when the requested archive is in the directory listing and has an archive extension |
| Unzipper.OnlyArchivesExtracted | unzipper.php:101-103 | any effect other than creating a directory implies the requested archive is in the listing with an archive extension |
| Unzipper.TarGzRequest | unzipper.php:169-203 | extracting `data.tar.gz` into a new `out` with everything available creates `./out`, inflates to `./out/data.tar`, extracts that into `./out`, deletes it, and reports the tar success |

## Left out

- HTML rendering, `$_POST` handling, `strip_tags`, the timing around the run, and the `date()`-based output name are left out. The output name is a parameter of `Zipper.ZipDir`.
- Byte-level I/O is left out: the 4096-byte `gzread` loop, `fwrite`, the zip and rar container formats, and what `PharData` extracts. Effects record only which file goes where.
- Exceptions and fatal errors are left out. `new PharData` on a file that is not a valid tar throws (line 193), and the exception is not caught. `new ZipArchive` in `zipDir` (line 320) has no `class_exists` guard, so without the zip extension packing ends in a fatal error. The extraction side's `new ZipArchive` (line 144) is guarded by the check at line 139, which the model does include.
- Unzipper.InflateInto: assumes `gzopen` and `fopen` succeed whenever zlib is loaded. When either returns `false` (lines 178-179), the next `gzread`, `fwrite` or `fclose` on it (lines 181-185) throws a TypeError in PHP 8. That ends the request before line 188 is reached, so no status is written at all. The model has no such outcome: its handler always writes a status.
- `opendir` failing inside `folderToZip` is left out. The tree given is what `readdir` yields. Symlinks and cycles are not representable, and an `Other` node stands for anything neither `is_file` nor `is_dir`.
- Zipper.ZipDir: the static `Zipper::$skipped` is never reset in the source, so a second run in one process would append to it. The model gives each run its own skipped list.
- Zipper.ZipDir: assumes `ZipArchive::open` succeeds (line 321). The source ignores its result. When it fails, the object stays uninitialised, and the next `addEmptyDir` (line 323), `addFile` (line 283) or `close` (line 330) on it throws a ValueError ("Invalid or uninitialized Zip object"). That ends the request before line 332 is reached, so no status is written at all. The model has no such outcome: its run always reports success. The results of `addFile`, `addEmptyDir` and `close` on an opened archive are ignored by the source too, and the model records each call without a result.
- Zipper.ZipDir: the output archive is opened with `ZipArchive::CREATE` only, without `OVERWRITE` (line 321). An existing archive of the same name, such as one from an earlier run in the same minute, is reopened and added to. The model's run lists only the calls this run makes, not what the archive already held.
- Unzipper.PrepareExtraction: `mkdir`'s result is ignored by the source, and the model records the attempt only.
- Loose comparison is modelled as strict equality. It appears in:
  - `!=` at lines 272 and 322;
  - `in_array` at lines 101, 278 and 287;
  - `==` at lines 192, 278 (`.DS_Store`) and 325;
  - the `switch` at line 117.

  In PHP 8, a loose comparison of two strings differs from the strict one only when both are numeric strings. At every site but line 325, one side is a literal or a configured path that is not numeric: `.`, `..`, the script name, `.DS_Store`, `zip`, `gz`, `rar`, `tar`, the skip-list paths, or a candidate ending in an archive extension. At line 325, `$sourcePath` and its basename differ only when the path contains '/', and a string containing '/' is not numeric.
- Some behaviours of the code that a reader might not expect, which the model follows:
  - the extraction directory is created before the candidate check, so a request for an unlisted archive can still create a directory;
  - packing reports success whenever it runs to the end, whatever the archive calls returned;
  - packing "." stores entries as `./x`, because the exclusive length is 0 when the source equals its basename.
- The gzip handler does not remove a partial output after a failure. The model creates no cleanup effect for that case.

## Findings

| source | as written | input that shows it | evidently intended | confidence | as-written member | corrected member |
|---|---|---|---|---|---|---|
| unzipper.php:325-329 | the exclusive length is `strlen(dirname($sourcePath) . '/')`, which equals the length of the text before the directory's name only when the source path is exactly dirname, '/', basename | source "a//b" holding file `x`: marker "b" but file stored as "/b/x"; source "/foo" holding `x`: marker "foo" but file stored as "oo/x" | cut every visited path where the directory's own name begins, so every archive name lies under the top folder named after the source | not executed | Zipper.DoubleSlashSourceMisplacesEntries | Zipper.ZipDirFixedUnderOwnName |

=== FILE: php_strings.dfy ===
/**
 The handful of PHP string and path built-ins the unzipper relies on, with
 the semantics of PHP 8 on a POSIX system: `empty()`, `strpos() !== false`,
 `substr()`, `basename()`, `dirname()` and `pathinfo()`'s extension and
 filename parts. Strings are plain character sequences; no locale or
 multibyte handling is modelled.
 */
module PhpStrings {

  /** `empty($s)` for a string: both "" and "0" count as empty. */
  predicate IsEmpty(s: string) {
    s == "" || s == "0"
  }

  /** `strpos($haystack, $needle) !== false`. An empty needle is found at offset 0. */
  predicate Contains(haystack: string, needle: string)
    decreases |haystack|
  {
    needle <= haystack || (|haystack| > |needle| && Contains(haystack[1..], needle))
  }

  /** `needle` occurs in `haystack` starting at offset `i`. */
  predicate OccursAt(haystack: string, needle: string, i: int) {
    0 <= i <= |haystack| - |needle| && haystack[i..i + |needle|] == needle
  }

  /** `Contains` finds the needle exactly when it occurs at some offset. */
  lemma {:induction false} ContainsIffOccurs(haystack: string, needle: string)
    ensures Contains(haystack, needle) <==> exists i :: OccursAt(haystack, needle, i)
    decreases |haystack|
  {
    if needle <= haystack {
      assert OccursAt(haystack, needle, 0);
    } else if |haystack| > |needle| {
      var tail := haystack[1..];
      ContainsIffOccurs(tail, needle);
      if Contains(tail, needle) {
        var i :| OccursAt(tail, needle, i);
        assert haystack[i + 1..i + 1 + |needle|] == tail[i..i + |needle|];
        assert OccursAt(haystack, needle, i + 1);
      }
      if exists i :: OccursAt(haystack, needle, i) {
        var i :| OccursAt(haystack, needle, i);
        if i > 0 {
          assert tail[i - 1..i - 1 + |needle|] == haystack[i..i + |needle|];
          assert OccursAt(tail, needle, i - 1);
        }
      }
    }
  }

  /** `substr($s, $start)` for a non-negative start; past the end PHP 8 yields "". */
  function Substr(s: string, start: nat): (r: string)
    ensures start <= |s| ==> s == s[..start] + r
    ensures |s| <= start ==> r == ""
  {
    if start <= |s| then s[start..] else ""
  }

  /** The longest suffix of `s` that does not contain `c` (all of `s` when `c` is absent). */
  function AfterLast(s: string, c: char): string
    decreases |s|
  {
    if s == [] || s[|s| - 1] == c then [] else AfterLast(s[..|s| - 1], c) + [s[|s| - 1]]
  }

  /**
   `AfterLast` is a suffix free of `c`, and unless it is all of `s` the
   character just before it is `c`.
   */
  lemma {:induction false} AfterLastFacts(s: string, c: char)
    ensures |AfterLast(s, c)| <= |s| && s[|s| - |AfterLast(s, c)|..] == AfterLast(s, c)
    ensures c !in AfterLast(s, c)
    ensures |AfterLast(s, c)| < |s| ==> s[|s| - |AfterLast(s, c)| - 1] == c
    decreases |s|
  {
    if s != [] && s[|s| - 1] != c {
      var p := s[..|s| - 1];
      AfterLastFacts(p, c);
      var q := AfterLast(p, c);
      assert AfterLast(s, c) == q + [s[|s| - 1]];
      AfterLastStep(s, c, q, AfterLast(s, c));
    } else {
      assert AfterLast(s, c) == [];
    }
  }

  /**
   The step of `AfterLastFacts`: a separator-free suffix `q` of `s` without
   its last character, preceded by the separator unless it is all of it,
   extends by that last character to such a suffix `r` of `s`.
   */
  lemma AfterLastStep(s: string, c: char, q: string, r: string)
    requires s != [] && s[|s| - 1] != c
    requires |q| <= |s| - 1 && s[..|s| - 1][|s| - 1 - |q|..] == q && c !in q
    requires |q| < |s| - 1 ==> s[..|s| - 1][|s| - 2 - |q|] == c
    requires r == q + [s[|s| - 1]]
    ensures |r| <= |s| && s[|s| - |r|..] == r
    ensures c !in r
    ensures |r| < |s| ==> s[|s| - |r| - 1] == c
  {
    LastSuffix(s, |q|);
  }

  /** A suffix of `s` is the same-length suffix of `s` without its last character, then that character. */
  lemma LastSuffix(s: string, k: nat)
    requires k < |s|
    ensures s[|s| - k - 1..] == s[..|s| - 1][|s| - 1 - k..] + [s[|s| - 1]]
    ensures k + 1 < |s| ==> s[|s| - k - 2] == s[..|s| - 1][|s| - k - 2]
  {
  }

  /** `s` with every trailing '/' removed. */
  function TrimTrailingSlashes(s: string): string
    decreases |s|
  {
    if s != [] && s[|s| - 1] == '/' then TrimTrailingSlashes(s[..|s| - 1]) else s
  }

  /** Trimming keeps a prefix that does not end in '/' and drops only slashes. */
  lemma {:induction false} TrimFacts(s: string)
    ensures TrimTrailingSlashes(s) <= s
    ensures TrimTrailingSlashes(s) == [] || TrimTrailingSlashes(s)[|TrimTrailingSlashes(s)| - 1] != '/'
    ensures forall i :: |TrimTrailingSlashes(s)| <= i < |s| ==> s[i] == '/'
    decreases |s|
  {
    if s != [] && s[|s| - 1] == '/' {
      var p := s[..|s| - 1];
      TrimFacts(p);
      var t := TrimTrailingSlashes(p);
      assert t == s[..|t|];
    }
  }

  /** `basename($path)`: the last component once trailing slashes are dropped. */
  function Basename(path: string): string {
    AfterLast(TrimTrailingSlashes(path), '/')
  }

  /** A basename never contains '/' and is a suffix of the trimmed path. */
  lemma BasenameFacts(path: string)
    ensures '/' !in Basename(path)
    ensures |Basename(path)| <= |TrimTrailingSlashes(path)|
  {
    AfterLastFacts(TrimTrailingSlashes(path), '/');
  }

  /**
   `dirname($path)` as PHP computes it (zend_dirname): drop trailing slashes,
   the last component and the slashes before it; "." when no slash is left
   and "/" when only slashes were. `pathinfo()` omits the dirname of "",
   which is the one input mapped to "" here.
   */
  function Dirname(path: string): string {
    if path == "" then ""
    else
      var t := TrimTrailingSlashes(path);
      if t == "" then "/"
      else
        AfterLastFacts(t, '/');
        var head := t[..|t| - |AfterLast(t, '/')|];
        if head == "" then "."
        else
          var g := TrimTrailingSlashes(head);
          if g == "" then "/" else g
  }

  /**
   What `dirname` returns, for every path: "" only for "", "/" for a path
   of slashes only, "." for a single component; otherwise "/" or a proper
   prefix of the path that does not end in '/', is followed by a '/', and
   leaves room for that '/' and the basename after it.
   */
  lemma DirnameFacts(path: string)
    ensures Dirname(path) == "" <==> path == ""
    ensures path != "" && TrimTrailingSlashes(path) == "" ==> Dirname(path) == "/"
    ensures TrimTrailingSlashes(path) != "" && '/' !in TrimTrailingSlashes(path) ==> Dirname(path) == "."
    ensures '/' in TrimTrailingSlashes(path) && Dirname(path) != "/" ==>
              Dirname(path) != "" && |Dirname(path)| < |path| && Dirname(path) <= path &&
              Dirname(path)[|Dirname(path)| - 1] != '/' && path[|Dirname(path)|] == '/' &&
              |Dirname(path)| + 1 + |Basename(path)| <= |TrimTrailingSlashes(path)|
    ensures '/' in TrimTrailingSlashes(path) ==> |Basename(path)| < |TrimTrailingSlashes(path)|
    ensures '/' in TrimTrailingSlashes(path) ==>
              (Dirname(path) == "/" <==>
               forall i :: 0 <= i < |TrimTrailingSlashes(path)| - |Basename(path)| ==> TrimTrailingSlashes(path)[i] == '/')
    ensures '/' in TrimTrailingSlashes(path) && Dirname(path) != "/" ==>
              Dirname(path) <= TrimTrailingSlashes(path) &&
              forall i :: |Dirname(path)| <= i < |TrimTrailingSlashes(path)| - |Basename(path)| ==> TrimTrailingSlashes(path)[i] == '/'
  {
    var t := TrimTrailingSlashes(path);
    TrimFacts(path);
    if path != "" && t != "" {
      if '/' !in t {
        AfterLastAbsent(t, '/');
        assert Dirname(path) == ".";
      } else {
        DirnameSlashed(path, t, Basename(path), Dirname(path));
      }
    }
  }

  /** `DirnameFacts` for a path whose trimmed form `t` holds a '/', with basename `b` and dirname `d`. */
  lemma DirnameSlashed(path: string, t: string, b: string, d: string)
    requires t == TrimTrailingSlashes(path) && '/' in t
    requires b == Basename(path) && d == Dirname(path)
    ensures |b| < |t| && d != ""
    ensures d == "/" <==> forall i :: 0 <= i < |t| - |b| ==> t[i] == '/'
    ensures d != "/" ==> |d| < |path| && d <= path && d[|d| - 1] != '/' && path[|d|] == '/' && |d| + 1 + |b| <= |t|
    ensures d != "/" ==> d <= t && forall i :: |d| <= i < |t| - |b| ==> t[i] == '/'
  {
    TrimFacts(path);
    AfterLastFacts(t, '/');
    AfterLastPresent(t, '/');
    var head := t[..|t| - |b|];
    var g := TrimTrailingSlashes(head);
    TrimFacts(head);
    HeadCases(t, b, head, g);
    if g == "" {
      assert d == "/";
    } else {
      assert d == g;
      DirOfTrimmed(path, t, b, head, g);
    }
  }

  /**
   The head `dirname` keeps before the basename, with its trailing slashes
   trimmed to `g`, is empty exactly when that head is all slashes; otherwise
   `g` is a prefix of `t` and only slashes follow it up to the basename.
   */
  lemma HeadCases(t: string, b: string, head: string, g: string)
    requires |b| < |t| && head == t[..|t| - |b|]
    requires g <= head && (g == [] || g[|g| - 1] != '/')
    requires forall i :: |g| <= i < |head| ==> head[i] == '/'
    ensures g == [] <==> forall i :: 0 <= i < |t| - |b| ==> t[i] == '/'
    ensures g != [] ==> g <= t && forall i :: |g| <= i < |t| - |b| ==> t[i] == '/'
  {
    if g != [] {
      assert t[|g| - 1] == g[|g| - 1];
    }
  }

  /** The arithmetic of `DirnameFacts`, over the pieces `dirname` cuts a path into. */
  lemma DirOfTrimmed(path: string, t: string, a: string, head: string, g: string)
    requires t <= path
    requires |a| < |t| && t[|t| - |a|..] == a && t[|t| - |a| - 1] == '/'
    requires head == t[..|t| - |a|]
    requires g != "" && g <= head && g[|g| - 1] != '/'
    requires forall i :: |g| <= i < |head| ==> head[i] == '/'
    ensures |g| < |path| && g <= path && path[|g|] == '/' && |g| + 1 + |a| <= |t|
  {
    assert head[|head| - 1] == '/';
    assert |g| < |head|;
    assert path[|g|] == t[|g|] == head[|g|];
  }

  /** `pathinfo($path, PATHINFO_EXTENSION)`: the text after the last '.' of the basename, or "". */
  function Extension(path: string): string {
    var b := Basename(path);
    AfterLastFacts(b, '.');
    if '.' in b then AfterLast(b, '.') else ""
  }

  /** `pathinfo($path, PATHINFO_FILENAME)`: the basename up to (not including) its last '.'. */
  function Filename(path: string): string {
    var b := Basename(path);
    AfterLastFacts(b, '.');
    if '.' in b then b[..|b| - |AfterLast(b, '.')| - 1] else b
  }

  lemma AfterLastAbsent(s: string, c: char)
    requires c !in s
    ensures AfterLast(s, c) == s
  {
  }

  lemma AfterLastPresent(s: string, c: char)
    requires c in s
    ensures |AfterLast(s, c)| < |s|
  {
  }

  lemma {:induction false} AfterLastOfJoin(s: string, c: char, t: string)
    requires c !in t
    ensures AfterLast(s + [c] + t, c) == t
    decreases |t|
  {
    var u := s + [c] + t;
    if t != [] {
      var t' := t[..|t| - 1];
      assert u[..|u| - 1] == s + [c] + t';
      AfterLastOfJoin(s, c, t');
      assert t == t' + [t[|t| - 1]];
    }
  }

  lemma TrimNoTrailingSlash(s: string)
    requires s == [] || s[|s| - 1] != '/'
    ensures TrimTrailingSlashes(s) == s
  {
  }

  /**
   The file name and extension `pathinfo()` reports split the basename back
   apart: joined by the '.' they were cut at, they give the basename again.
   */
  lemma FilenameExtensionSplit(path: string)
    ensures '.' in Basename(path) ==>
              Basename(path) == Filename(path) + "." + Extension(path) && '.' !in Extension(path)
    ensures '.' !in Basename(path) ==> Filename(path) == Basename(path) && Extension(path) == ""
  {
    var b := Basename(path);
    if '.' in b {
      var e := AfterLast(b, '.');
      AfterLastFacts(b, '.');
      AfterLastPresent(b, '.');
      var k := |b| - |e| - 1;
      assert b[k] == '.';
      assert b[k + 1..] == e;
      assert b == b[..k] + [b[k]] + b[k + 1..];
    }
  }

  /** A name without any '/' is its own basename. */
  lemma BasenamePlain(n: string)
    requires '/' !in n
    ensures Basename(n) == n
  {
    TrimNoTrailingSlash(n);
    AfterLastAbsent(n, '/');
  }

  /** A plain name `stem.ext` has extension `ext` and file name `stem`. */
  lemma NameParts(stem: string, ext: string)
    requires '/' !in stem && '/' !in ext && '.' !in ext
    ensures Extension(stem + "." + ext) == ext
    ensures Filename(stem + "." + ext) == stem
  {
    var n := stem + ['.'] + ext;
    assert n == stem + "." + ext;
    assert '/' !in n;
    BasenamePlain(n);
    AfterLastOfJoin(stem, '.', ext);
    assert n[|stem|] == '.';
  }

  /** The basename of `folder/f` is `f` whenever `f` is a plain, non-empty name. */
  lemma BasenameOfChild(folder: string, f: string)
    requires f != "" && '/' !in f
    ensures Basename(folder + "/" + f) == f
  {
    var p := folder + "/" + f;
    assert p[|p| - 1] == f[|f| - 1];
    TrimNoTrailingSlash(p);
    assert p == folder + ['/'] + f;
    AfterLastOfJoin(folder, '/', f);
  }

  /**
   `dirname` and `basename` undo the join of a directory and a plain name,
   provided the directory part does not itself end in '/'.
   */
  lemma {:induction false} DirnameBasenameOfJoin(dir: string, f: string)
    requires dir != "" && dir[|dir| - 1] != '/'
    requires f != "" && '/' !in f
    ensures Dirname(dir + "/" + f) == dir
    ensures Basename(dir + "/" + f) == f
  {
    var p := dir + "/" + f;
    BasenameOfChild(dir, f);
    assert p[|p| - 1] == f[|f| - 1];
    TrimNoTrailingSlash(p);
    assert p == dir + ['/'] + f;
    AfterLastOfJoin(dir, '/', f);
    assert p[..|p| - |f|] == dir + "/";
    assert TrimTrailingSlashes(dir + "/") == TrimTrailingSlashes(dir) by {
      assert (dir + "/")[..|dir + "/"| - 1] == dir;
    }
    TrimNoTrailingSlash(dir);
  }
}

=== FILE: reporting.dfy ===
/**
 The single-slot status both tools report through. The script keeps it in
 the static array `Unzipper::$status` as one `[kind => message]` pair; here
 it is a value that each operation receives and returns.
 */
module Reporting {

  /** Every message the script writes into the slot; `Text` gives each one's exact wording. */
  datatype Message =
    | ArchivesFound
    | NoArchivesFound
    | ZipUnsupported
    | ZipUnreadable
    | ZipDone
    | NotWriteable
    | NoZlib
    | GzDone
    | TarDone
    | GzFailed
    | RarUnsupported
    | RarUnreadable
    | RarDone
    | Created(outZipPath: string)

  /** The text the page shows for a message. */
  function Text(m: Message): string {
    match m
    case ArchivesFound => ".zip or .gz or .rar files found, ready for extraction"
    case NoArchivesFound => "No .zip or .gz or rar files found. So only zipping functionality available."
    case ZipUnsupported => "Error: Your PHP version does not support unzip functionality."
    case ZipUnreadable => "Error: Cannot read .zip archive."
    case ZipDone => "Files unzipped successfully"
    case NotWriteable => "Error: Directory not writeable by webserver."
    case NoZlib => "Error: Your PHP has no zlib support enabled."
    case GzDone => "File unzipped successfully."
    case TarDone => "Extracted tar.gz archive successfully."
    case GzFailed => "Error unzipping file."
    case RarUnsupported =>
      "Error: Your PHP version does not support .rar archive functionality. " +
      "<a class=\"info\" href=\"http://php.net/manual/en/rar.installation.php\" target=\"_blank\">How to install RarArchive</a>"
    case RarUnreadable => "Error: Cannot read .rar archive."
    case RarDone => "Files extracted successfully."
    case Created(out) => "Successfully created archive " + out
  }

  datatype Status = Info(msg: Message) | Success(msg: Message) | Error(msg: Message)

  /** An optional value. */
  datatype Option<+T> = None | Some(value: T)

  /** One rung of a handler's status ladder: a condition and the error it reports when false. */
  datatype Check = Check(passed: bool, failure: Message)

  /**
   The status a sequence of checks settles on when they are tried in order:
   the error of the first check that fails, or `Success(success)` when all pass.
   */
  function Ladder(checks: seq<Check>, success: Message): (r: Status)
    ensures r.Success? <==> forall i :: 0 <= i < |checks| ==> checks[i].passed
    ensures r.Success? ==> r.msg == success
    ensures !r.Success? ==> r.Error?
    ensures r.Error? ==>
              exists i :: 0 <= i < |checks| && !checks[i].passed && r.msg == checks[i].failure &&
                          forall j :: 0 <= j < i ==> checks[j].passed
  {
    if checks == [] then Success(success)
    else if !checks[0].passed then Error(checks[0].failure)
    else
      var rest := Ladder(checks[1..], success);
      assert forall i :: 1 <= i < |checks| ==> checks[i] == checks[1..][i - 1];
      rest
  }

  /** A ladder of three checks, rung by rung. */
  lemma LadderOfThree(a: Check, b: Check, c: Check, success: Message)
    ensures Ladder([a, b, c], success) ==
            if !a.passed then Error(a.failure)
            else if !b.passed then Error(b.failure)
            else if !c.passed then Error(c.failure)
            else Success(success)
  {
    assert [a, b, c][1..] == [b, c];
    LadderOfTwo(b, c, success);
  }

  /** A ladder of two checks, rung by rung. */
  lemma LadderOfTwo(a: Check, b: Check, success: Message)
    ensures Ladder([a, b], success) ==
            if !a.passed then Error(a.failure)
            else if !b.passed then Error(b.failure)
            else Success(success)
  {
    assert [a, b][1..] == [b];
    assert [b][1..] == [];
    assert Ladder([b], success) == if !b.passed then Error(b.failure) else Success(success);
  }
}

=== FILE: unzipper.dfy ===
/**
 The extracting half of the script (`class Unzipper`): which directory
 entries are offered for extraction, where an archive is extracted to, and
 which status each handler settles on. Everything the handlers ask of PHP
 or of the disk is an oracle boolean; what they do to the disk is returned
 as a list of effects in the order they happen.
 */
module Unzipper {
  import opened PhpStrings
  import opened Reporting

  /** Which optional PHP extensions are loaded: `ZipArchive`, `gzopen`, `RarArchive`. */
  datatype Runtime = Runtime(zipArchive: bool, gzopen: bool, rarArchive: bool)

  /**
   The answers the disk and the archive libraries give during one request:
   whether the archive opens, whether `destination/` is writeable, whether
   the inflated `.gz` output exists afterwards, whether `PharData::extractTo`
   succeeds, and whether the extraction path already is a directory.
   */
  datatype Disk = Disk(archiveOpens: bool, destWritable: bool, outputExists: bool,
                       tarExtracted: bool, destIsDir: bool)

  /** What a handler does to the disk. */
  datatype Effect =
    | MakeDir(path: string)
    | ExtractZip(archive: string, dest: string)
    | Inflate(archive: string, output: string)
    | ExtractTar(tar: string, dest: string)
    | Unlink(path: string)
    | ExtractRar(archive: string, dest: string)

  /** What one handler leaves behind: it always writes the status slot. */
  datatype Handled = Handled(status: Status, effects: seq<Effect>)

  /**
   The status slot after an operation and the effects, in order. The slot
   is `None` while nothing has written it (the script's initial `[]`).
   */
  datatype Outcome = Outcome(status: Option<Status>, effects: seq<Effect>)

  /** An `Unzipper` object: the directory it reads and the archives it found there. */
  datatype Unzipper = Unzipper(localdir: string, zipfiles: seq<string>)

  /** The object the constructor builds and the status it leaves: `None` (the initial `[]`) when `opendir` fails. */
  datatype Constructed = Constructed(unzipper: Unzipper, status: Option<Status>)

  const LocalDir := "."

  // ---------------------------------------------------------------------
  // Candidates

  /** An entry is offered for extraction when its extension is exactly `zip`, `gz` or `rar`. */
  predicate IsArchiveName(f: string) {
    var e := Extension(f);
    e == "zip" || e == "gz" || e == "rar"
  }

  /** The entries of a directory listing the constructor keeps, in listing order. */
  function Candidates(listing: seq<string>): (r: seq<string>)
    ensures forall f :: f in r <==> f in listing && IsArchiveName(f)
    ensures forall f :: multiset(r)[f] == if IsArchiveName(f) then multiset(listing)[f] else 0
    decreases listing
  {
    if listing == [] then []
    else
      var rest := Candidates(listing[1..]);
      assert listing == [listing[0]] + listing[1..];
      if IsArchiveName(listing[0]) then [listing[0]] + rest else rest
  }

  /** Filtering a listing in two parts gives the two filtered parts one after the other. */
  lemma {:induction false} CandidatesConcat(a: seq<string>, b: seq<string>)
    ensures Candidates(a + b) == Candidates(a) + Candidates(b)
    decreases a
  {
    if a == [] {
      assert a + b == b;
    } else {
      assert (a + b)[0] == a[0];
      assert (a + b)[1..] == a[1..] + b;
      CandidatesConcat(a[1..], b);
    }
  }

  /** The filtered list is empty exactly when no entry of the listing has an archive extension. */
  lemma CandidatesEmpty(listing: seq<string>)
    ensures Candidates(listing) != [] <==> exists i :: 0 <= i < |listing| && IsArchiveName(listing[i])
  {
    var r := Candidates(listing);
    if r != [] {
      assert r[0] in r;
      var i :| 0 <= i < |listing| && listing[i] == r[0];
    }
    if exists i :: 0 <= i < |listing| && IsArchiveName(listing[i]) {
      var i :| 0 <= i < |listing| && IsArchiveName(listing[i]);
      assert listing[i] in r;
    }
  }

  /** The constructor's message for a given list of candidates. */
  function InfoMessage(zipfiles: seq<string>): Message {
    if zipfiles != [] then ArchivesFound else NoArchivesFound
  }

  /**
   `new Unzipper`: `listing` is what `readdir` yields in the local directory,
   or `None` when `opendir` fails, in which case the list stays empty and no
   status is written.
   */
  function Construct(listing: Option<seq<string>>): (r: Constructed)
    ensures r.unzipper.localdir == LocalDir
    ensures listing.None? ==> r.unzipper.zipfiles == [] && r.status == None
    ensures listing.Some? ==> r.unzipper.zipfiles == Candidates(listing.value)
    ensures listing.Some? ==> r.status == Some(Info(InfoMessage(Candidates(listing.value))))
  {
    match listing
    case None => Constructed(Unzipper(LocalDir, []), None)
    case Some(entries) =>
      var zipfiles := Candidates(entries);
      Constructed(Unzipper(LocalDir, zipfiles), Some(Info(InfoMessage(zipfiles))))
  }

  /**
   The constructor reports that archives were found exactly when some entry
   of the listing has an archive extension, and the zipping-only message
   exactly when none has.
   */
  lemma ConstructInfo(listing: seq<string>)
    ensures Construct(Some(listing)).status == Some(Info(ArchivesFound)) <==>
            exists i :: 0 <= i < |listing| && IsArchiveName(listing[i])
    ensures Construct(Some(listing)).status == Some(Info(NoArchivesFound)) <==>
            forall i :: 0 <= i < |listing| ==> !IsArchiveName(listing[i])
  {
    CandidatesEmpty(listing);
  }

  // ---------------------------------------------------------------------
  // Handlers

  /** `extractZipArchive($archive, $destination)`. */
  function ExtractZipArchive(rt: Runtime, disk: Disk, archive: string, dest: string): (r: Handled)
    ensures r.status == Ladder([Check(rt.zipArchive, ZipUnsupported), Check(disk.archiveOpens, ZipUnreadable),
                                Check(disk.destWritable, NotWriteable)], ZipDone)
    ensures r.status.Success? ==> r.effects == [ExtractZip(archive, dest)]
    ensures !r.status.Success? ==> r.effects == []
  {
    LadderOfThree(Check(rt.zipArchive, ZipUnsupported), Check(disk.archiveOpens, ZipUnreadable),
                  Check(disk.destWritable, NotWriteable), ZipDone);
    if !rt.zipArchive then Handled(Error(ZipUnsupported), [])
    else if !disk.archiveOpens then Handled(Error(ZipUnreadable), [])
    else if !disk.destWritable then Handled(Error(NotWriteable), [])
    else Handled(Success(ZipDone), [ExtractZip(archive, dest)])
  }

  /** `extractRarArchive($archive, $destination)`. */
  function ExtractRarArchive(rt: Runtime, disk: Disk, archive: string, dest: string): (r: Handled)
    ensures r.status == Ladder([Check(rt.rarArchive, RarUnsupported), Check(disk.archiveOpens, RarUnreadable),
                                Check(disk.destWritable, NotWriteable)], RarDone)
    ensures r.status.Success? ==> r.effects == [ExtractRar(archive, dest)]
    ensures !r.status.Success? ==> r.effects == []
  {
    LadderOfThree(Check(rt.rarArchive, RarUnsupported), Check(disk.archiveOpens, RarUnreadable),
                  Check(disk.destWritable, NotWriteable), RarDone);
    if !rt.rarArchive then Handled(Error(RarUnsupported), [])
    else if !disk.archiveOpens then Handled(Error(RarUnreadable), [])
    else if !disk.destWritable then Handled(Error(NotWriteable), [])
    else Handled(Success(RarDone), [ExtractRar(archive, dest)])
  }

  /** The file a `.gz` archive is inflated into: the destination joined with the archive's name minus its last extension. */
  function GzOutput(archive: string, dest: string): string {
    dest + "/" + Filename(archive)
  }

  /**
   The steps of `extractGzipFile` once the output name `out` is fixed:
   inflate into `out`, then judge by whether it exists; a `.tar` output is
   extracted in turn and removed only once that extraction reports success.
   */
  function InflateInto(rt: Runtime, disk: Disk, archive: string, dest: string, out: string): (r: Handled)
    ensures !rt.gzopen ==> r.effects == []
    ensures rt.gzopen ==> |r.effects| > 0 && r.effects[0] == Inflate(archive, out)
    ensures ExtractTar(out, dest) in r.effects <==> rt.gzopen && disk.outputExists && Extension(out) == "tar"
    ensures Unlink(out) in r.effects <==> r.status == Success(TarDone)
    ensures Unlink(out) in r.effects ==> r.effects == [Inflate(archive, out), ExtractTar(out, dest), Unlink(out)]
    ensures forall e :: e in r.effects ==> e == Inflate(archive, out) || e == ExtractTar(out, dest) || e == Unlink(out)
    ensures r.effects <= [Inflate(archive, out), ExtractTar(out, dest), Unlink(out)]
  {
    if !rt.gzopen then Handled(Error(NoZlib), [])
    else
      var inflated := [Inflate(archive, out)];
      if !disk.outputExists then Handled(Error(GzFailed), inflated)
      else if Extension(out) == "tar" then
        if disk.tarExtracted then Handled(Success(TarDone), inflated + [ExtractTar(out, dest), Unlink(out)])
        else Handled(Success(GzDone), inflated + [ExtractTar(out, dest)])
      else Handled(Success(GzDone), inflated)
  }

  /**
   The status of the `.gz` steps is the two-rung ladder: zlib present, then
   the output file exists; on success the tar message only when the output
   is a tar and its extraction succeeded.
   */
  lemma InflateIntoLadder(rt: Runtime, disk: Disk, archive: string, dest: string, out: string)
    ensures InflateInto(rt, disk, archive, dest, out).status ==
            Ladder([Check(rt.gzopen, NoZlib), Check(disk.outputExists, GzFailed)],
                   if Extension(out) == "tar" && disk.tarExtracted then TarDone else GzDone)
  {
    LadderOfTwo(Check(rt.gzopen, NoZlib), Check(disk.outputExists, GzFailed),
                if Extension(out) == "tar" && disk.tarExtracted then TarDone else GzDone);
  }

  /** `extractGzipFile($archive, $destination)`: the steps above, into the destination joined with the archive's name minus its last extension. */
  function ExtractGzipFile(rt: Runtime, disk: Disk, archive: string, dest: string): Handled {
    InflateInto(rt, disk, archive, dest, GzOutput(archive, dest))
  }

  /** Joining under a directory commutes with putting a name back together. */
  lemma JoinUnder(dest: string, stem: string, ext: string, name: string)
    requires name == stem + "." + ext
    ensures dest + "/" + stem + "." + ext == dest + "/" + name
  {
  }

  /** The inflated file's name, put back together with the stripped extension, is the archive's own name under the destination. */
  lemma GzOutputRestoresName(archive: string, dest: string)
    ensures '.' in Basename(archive) ==> GzOutput(archive, dest) + "." + Extension(archive) == dest + "/" + Basename(archive)
    ensures '.' !in Basename(archive) ==> GzOutput(archive, dest) == dest + "/" + Basename(archive)
  {
    FilenameExtensionSplit(archive);
    if '.' in Basename(archive) {
      JoinUnder(dest, Filename(archive), Extension(archive), Basename(archive));
    }
  }

  /** `stem.tar.ext` inflates to `dest/stem.tar`, which the handler goes on to extract as a tar archive. */
  lemma TarGzIsTarOutput(stem: string, ext: string, dest: string)
    requires '/' !in stem && '/' !in ext && '.' !in ext
    ensures GzOutput(stem + ".tar." + ext, dest) == dest + "/" + (stem + ".tar")
    ensures Extension(GzOutput(stem + ".tar." + ext, dest)) == "tar"
  {
    var t := stem + ".tar";
    var n := stem + ".tar." + ext;
    assert n == t + "." + ext;
    NameParts(t, ext);
    assert Filename(n) == t;
    TarOutputName(dest, stem);
  }

  lemma TarOutputName(dest: string, stem: string)
    requires '/' !in stem
    ensures Extension(dest + "/" + (stem + ".tar")) == "tar"
  {
    var t := stem + ".tar";
    assert t == stem + "." + "tar";
    assert '/' !in t;
    BasenameOfChild(dest, t);
    BasenamePlain(t);
    NameParts(stem, "tar");
    assert Extension(dest + "/" + t) == Extension(t);
  }

  /** A plain `stem.gz` whose stem has no '.' inflates to a file with no extension, so no tar step follows. */
  lemma PlainGzIsNotTar(stem: string, dest: string)
    requires stem != "" && '/' !in stem && '.' !in stem
    ensures GzOutput(stem + ".gz", dest) == dest + "/" + stem
    ensures Extension(GzOutput(stem + ".gz", dest)) != "tar"
  {
    assert stem + ".gz" == stem + "." + "gz";
    NameParts(stem, "gz");
    BasenameOfChild(dest, stem);
  }

  // ---------------------------------------------------------------------
  // Dispatch

  /**
   The effects a handler called on `archive` and `dest` can have: each names
   the archive, the destination, or a path beginning with the destination
   and '/' (a string prefix: a file name such as ".." still names a
   directory outside it); none creates a directory.
   */
  predicate Touches(e: Effect, archive: string, dest: string) {
    match e
    case MakeDir(_) => false
    case ExtractZip(a, d) => a == archive && d == dest
    case Inflate(a, o) => a == archive && dest + "/" <= o
    case ExtractTar(t, d) => d == dest && dest + "/" <= t
    case Unlink(p) => dest + "/" <= p
    case ExtractRar(a, d) => a == archive && d == dest
  }

  lemma UnderDest(dest: string, name: string)
    ensures dest + "/" <= dest + "/" + name
  {
  }

  function Lift(h: Handled): Outcome {
    Outcome(Some(h.status), h.effects)
  }

  /** `extract($archive, $destination)`: pick the handler by extension; any other extension does nothing at all. */
  function Extract(rt: Runtime, disk: Disk, slot: Option<Status>, archive: string, dest: string): (r: Outcome)
    ensures !IsArchiveName(archive) ==> r == Outcome(slot, [])
    ensures IsArchiveName(archive) ==> r.status.Some? && (r.status.value.Success? || r.status.value.Error?)
    ensures Extension(archive) == "zip" ==> r == Lift(ExtractZipArchive(rt, disk, archive, dest))
    ensures Extension(archive) == "gz" ==> r == Lift(ExtractGzipFile(rt, disk, archive, dest))
    ensures Extension(archive) == "rar" ==> r == Lift(ExtractRarArchive(rt, disk, archive, dest))
  {
    var ext := Extension(archive);
    if ext == "zip" then Lift(ExtractZipArchive(rt, disk, archive, dest))
    else if ext == "gz" then
      Lift(ExtractGzipFile(rt, disk, archive, dest))
    else if ext == "rar" then Lift(ExtractRarArchive(rt, disk, archive, dest))
    else Outcome(slot, [])
  }

  /**
   Whatever the handler, every effect of `extract` names the archive it was
   given, the destination, or a path beginning with the destination and '/';
   it never creates a directory.
   */
  lemma ExtractTouches(rt: Runtime, disk: Disk, slot: Option<Status>, archive: string, dest: string)
    ensures forall e :: e in Extract(rt, disk, slot, archive, dest).effects ==> Touches(e, archive, dest)
  {
    var ext := Extension(archive);
    var r := Extract(rt, disk, slot, archive, dest);
    if ext == "zip" {
      forall e | e in r.effects
        ensures Touches(e, archive, dest)
      {
        assert e == ExtractZip(archive, dest);
      }
    } else if ext == "gz" {
      InflateTouches(rt, disk, archive, dest, Filename(archive));
      assert r.effects == InflateInto(rt, disk, archive, dest, dest + "/" + Filename(archive)).effects;
    } else if ext == "rar" {
      forall e | e in r.effects
        ensures Touches(e, archive, dest)
      {
        assert e == ExtractRar(archive, dest);
      }
    }
  }

  lemma InflateTouches(rt: Runtime, disk: Disk, archive: string, dest: string, name: string)
    ensures forall e :: e in InflateInto(rt, disk, archive, dest, dest + "/" + name).effects ==> Touches(e, archive, dest)
  {
    var out := dest + "/" + name;
    UnderDest(dest, name);
    var h := InflateInto(rt, disk, archive, dest, out);
    forall e | e in h.effects
      ensures Touches(e, archive, dest)
    {
      assert e == Inflate(archive, out) || e == ExtractTar(out, dest) || e == Unlink(out);
    }
  }

  /** Where `prepareExtraction` extracts to: the local directory, or the destination beneath it unless that is empty. */
  function ExtractionPath(localdir: string, destination: string): (r: string)
    ensures IsEmpty(destination) ==> r == localdir
    ensures !IsEmpty(destination) ==> localdir + "/" <= r && r[|localdir| + 1..] == destination
  {
    if IsEmpty(destination) then localdir else localdir + "/" + destination
  }

  /**
   `prepareExtraction($archive, $destination)`: a missing destination
   directory is created first, whatever the archive; extraction follows only
   for an archive on the object's list.
   */
  function PrepareExtraction(u: Unzipper, rt: Runtime, disk: Disk, slot: Option<Status>,
                             archive: string, destination: string): (r: Outcome)
    ensures MakeDir(ExtractionPath(u.localdir, destination)) in r.effects <==> !IsEmpty(destination) && !disk.destIsDir
    ensures !IsEmpty(destination) && !disk.destIsDir ==> r.effects[0] == MakeDir(ExtractionPath(u.localdir, destination))
    ensures archive !in u.zipfiles ==> r.status == slot
    ensures archive !in u.zipfiles ==> forall e :: e in r.effects ==> e.MakeDir?
    ensures archive in u.zipfiles && IsArchiveName(archive) ==>
              r.status.Some? && (r.status.value.Success? || r.status.value.Error?)
    ensures archive in u.zipfiles ==>
              r.status == Extract(rt, disk, slot, archive, ExtractionPath(u.localdir, destination)).status
    ensures archive in u.zipfiles ==>
              |Extract(rt, disk, slot, archive, ExtractionPath(u.localdir, destination)).effects| <= |r.effects| <=
              |Extract(rt, disk, slot, archive, ExtractionPath(u.localdir, destination)).effects| + 1
    ensures archive in u.zipfiles ==>
              r.effects[|r.effects| - |Extract(rt, disk, slot, archive, ExtractionPath(u.localdir, destination)).effects|..] ==
              Extract(rt, disk, slot, archive, ExtractionPath(u.localdir, destination)).effects
    ensures archive !in u.zipfiles ==>
              r.effects == if !IsEmpty(destination) && !disk.destIsDir then [MakeDir(ExtractionPath(u.localdir, destination))] else []
    ensures archive in u.zipfiles && !IsEmpty(destination) && !disk.destIsDir ==>
              |r.effects| == 1 + |Extract(rt, disk, slot, archive, ExtractionPath(u.localdir, destination)).effects|
    ensures archive in u.zipfiles && !(!IsEmpty(destination) && !disk.destIsDir) ==>
              r.effects == Extract(rt, disk, slot, archive, ExtractionPath(u.localdir, destination)).effects
  {
    var extpath := ExtractionPath(u.localdir, destination);
    var made := if !IsEmpty(destination) && !disk.destIsDir then [MakeDir(extpath)] else [];
    if archive in u.zipfiles then
      var x := Extract(rt, disk, slot, archive, extpath);
      ExtractTouches(rt, disk, slot, archive, extpath);
      Outcome(x.status, made + x.effects)
    else Outcome(slot, made)
  }

  /**
   Apart from creating the extraction directory itself, everything
   `prepareExtraction` does concerns a listed archive and names the
   extraction path or a path beginning with it and '/'.
   */
  lemma PrepareTouches(u: Unzipper, rt: Runtime, disk: Disk, slot: Option<Status>, archive: string, destination: string)
    ensures forall e :: e in PrepareExtraction(u, rt, disk, slot, archive, destination).effects ==>
              e == MakeDir(ExtractionPath(u.localdir, destination)) ||
              (archive in u.zipfiles && Touches(e, archive, ExtractionPath(u.localdir, destination)))
  {
    var extpath := ExtractionPath(u.localdir, destination);
    var r := PrepareExtraction(u, rt, disk, slot, archive, destination);
    var made := if !IsEmpty(destination) && !disk.destIsDir then [MakeDir(extpath)] else [];
    if archive in u.zipfiles {
      ExtractTouches(rt, disk, slot, archive, extpath);
      var x := Extract(rt, disk, slot, archive, extpath);
      assert r.effects == made + x.effects;
      forall e | e in r.effects
        ensures e == MakeDir(extpath) || Touches(e, archive, extpath)
      {
        if e !in made {
          assert e in x.effects;
        }
      }
    } else {
      assert r.effects == made;
    }
  }

  /**
   On an object the constructor built, the status the constructor left is
   replaced exactly when the requested archive was in the directory listing
   with an archive extension.
   */
  lemma ExtractionGate(listing: seq<string>, rt: Runtime, disk: Disk, archive: string, destination: string)
    ensures var c := Construct(Some(listing));
            PrepareExtraction(c.unzipper, rt, disk, c.status, archive, destination).status != c.status <==>
            archive in listing && IsArchiveName(archive)
  {
    var c := Construct(Some(listing));
    assert archive in c.unzipper.zipfiles <==> archive in listing && IsArchiveName(archive);
  }

  /**
   An archive extension is necessary for any archive effect: an object whose
   list holds only archive names never extracts anything else.
   */
  lemma OnlyArchivesExtracted(listing: seq<string>, rt: Runtime, disk: Disk, archive: string, destination: string)
    ensures var c := Construct(Some(listing));
            var r := PrepareExtraction(c.unzipper, rt, disk, c.status, archive, destination);
            (exists e :: e in r.effects && !e.MakeDir?) ==> archive in listing && IsArchiveName(archive)
  {
    var c := Construct(Some(listing));
    var r := PrepareExtraction(c.unzipper, rt, disk, c.status, archive, destination);
    if exists e :: e in r.effects && !e.MakeDir? {
      assert archive in c.unzipper.zipfiles;
    }
  }

  // ---------------------------------------------------------------------
  // A worked request

  const Everything := Runtime(true, true, true)
  const AllGood := Disk(true, true, true, true, false)

  lemma DataTarGzSpelling()
    ensures "data" + ".tar." + "gz" == "data.tar.gz"
    ensures "./out" + "/" + ("data" + ".tar") == "./out/data.tar"
    ensures "data.tar" + "." + "gz" == "data.tar.gz"
    ensures "." + "/" + "out" == "./out"
  {
  }

  lemma DataTarGzParts()
    ensures GzOutput("data.tar.gz", "./out") == "./out/data.tar"
    ensures Extension(GzOutput("data.tar.gz", "./out")) == "tar"
    ensures Extension("data.tar.gz") == "gz"
  {
    DataTarGzSpelling();
    TarGzIsTarOutput("data", "gz", "./out");
    NameParts("data.tar", "gz");
  }

  /**
   Extracting `data.tar.gz` into a new `out` directory with every extension
   loaded and every disk call succeeding: the directory is made, the archive
   inflated to `./out/data.tar`, that tar extracted into `./out` and then
   deleted, and the tar message reported.
   */
  lemma TarGzRequest()
    ensures PrepareExtraction(Unzipper(LocalDir, ["data.tar.gz"]), Everything, AllGood, Some(Info(ArchivesFound)),
                              "data.tar.gz", "out") ==
            Outcome(Some(Success(TarDone)),
                    [MakeDir("./out"), Inflate("data.tar.gz", "./out/data.tar"),
                     ExtractTar("./out/data.tar", "./out"), Unlink("./out/data.tar")])
  {
    DataTarGzSpelling();
    assert !IsEmpty("out");
    assert ExtractionPath(LocalDir, "out") == "./out";
    assert "data.tar.gz" in ["data.tar.gz"];
    DataTarGzHandled();
    DataTarGzParts();
    var tail := [Inflate("data.tar.gz", "./out/data.tar"), ExtractTar("./out/data.tar", "./out"), Unlink("./out/data.tar")];
    var x := Extract(Everything, AllGood, Some(Info(ArchivesFound)), "data.tar.gz", "./out");
    assert x == Outcome(Some(Success(TarDone)), tail);
    PrependOne(MakeDir("./out"), tail[0], tail[1], tail[2]);
  }

  lemma PrependOne(a: Effect, b: Effect, c: Effect, d: Effect)
    ensures [a] + [b, c, d] == [a, b, c, d]
  {
  }

  lemma DataTarGzHandled()
    ensures ExtractGzipFile(Everything, AllGood, "data.tar.gz", "./out") ==
            Handled(Success(TarDone), [Inflate("data.tar.gz", "./out/data.tar"),
                                       ExtractTar("./out/data.tar", "./out"), Unlink("./out/data.tar")])
  {
    DataTarGzParts();
    var out := GzOutput("data.tar.gz", "./out");
    assert out == "./out/data.tar";
    assert InflateInto(Everything, AllGood, "data.tar.gz", "./out", out) ==
           Handled(Success(TarDone), [Inflate("data.tar.gz", out), ExtractTar(out, "./out"), Unlink(out)]);
  }
}

=== FILE: zipper.dfy ===
/**
 `Zipper::zipDir`: pack one directory into a new archive. The archive is
 opened, an empty-directory marker for the directory's own name is added
 unless the source is ".", the walk runs with the exclusive prefix length
 computed from `pathinfo()`, and the status reports success naming the
 output. Opening and closing the archive are not modelled: the source
 ignores their results.
 */
module Zipper {
  import opened PhpStrings
  import opened Reporting
  import opened ZipperWalk
  import opened ZipperPaths

  /** One packing run: the archive calls in order, the skipped paths, and the status it leaves. */
  datatype PackRun = PackRun(entries: seq<Entry>, skipped: seq<string>, status: Status)

  /** The configuration at the top of the script (output prefix, skip lists, script name). */
  const ScriptConfig := Config(
    "swiss-smile",
    ["./.user.ini"],
    ["./.quarantine", "./.tmb", "./.well-known", "./wp-content/updraft"],
    "unzipper.php")

  /**
   What the script's configuration excludes: the script itself is passed over, `.user.ini` at the top
   and any path holding the output prefix are skipped, and exactly four directories are skipped.
   */
  lemma ScriptRules()
    ensures IsPseudo(ScriptConfig, "unzipper.php")
    ensures FileExcluded(ScriptConfig, "./.user.ini", ".user.ini")
    ensures FileExcluded(ScriptConfig, "./swiss-smile-1.zip", "swiss-smile-1.zip")
    ensures forall p :: DirExcluded(ScriptConfig, p) <==>
              p == "./.quarantine" || p == "./.tmb" || p == "./.well-known" || p == "./wp-content/updraft"
  {
    var hit := "./swiss-smile-1.zip";
    assert ScriptConfig.prefix <= hit[2..];
    assert Contains(hit[1..], ScriptConfig.prefix);
  }

  /** Every entry of a run is the top marker or a visited path beneath the source, cut by `excl`. */
  lemma PackEntries(cfg: Config, sourcePath: string, outZipPath: string, listing: seq<Node>, excl: nat)
    ensures forall e :: e in Pack(cfg, sourcePath, outZipPath, listing, excl).entries ==>
              e == AddEmptyDir(sourcePath, Basename(sourcePath)) || sourcePath + "/" <= e.source
    ensures forall e :: e in Pack(cfg, sourcePath, outZipPath, listing, excl).entries ==>
              e == AddEmptyDir(sourcePath, Basename(sourcePath)) || e.local == Substr(e.source, excl)
  {
    var top := if sourcePath != "." then [AddEmptyDir(sourcePath, Basename(sourcePath))] else [];
    var walked := FolderToZip(cfg, sourcePath, listing, excl);
    assert Pack(cfg, sourcePath, outZipPath, listing, excl).entries == top + walked.entries;
    WalkNames(cfg, sourcePath, listing, excl);
    forall e | e in top + walked.entries
      ensures e == AddEmptyDir(sourcePath, Basename(sourcePath)) || (sourcePath + "/" <= e.source && e.local == Substr(e.source, excl))
    {
      if e !in top {
        assert e in walked.entries;
      }
    }
  }

  /**
   How many leading characters `zipDir` cuts from every visited path: none
   when the source is its own basename, else the length of its dirname plus
   one separator.
   */
  function ExclusiveLength(sourcePath: string): nat {
    if sourcePath == Basename(sourcePath) then 0 else |Dirname(sourcePath) + "/"|
  }

  /** The shared body of `zipDir`, for a given exclusive length. */
  function Pack(cfg: Config, sourcePath: string, outZipPath: string, listing: seq<Node>, excl: nat): PackRun {
    var top := if sourcePath != "." then [AddEmptyDir(sourcePath, Basename(sourcePath))] else [];
    var walked := FolderToZip(cfg, sourcePath, listing, excl);
    PackRun(top + walked.entries, walked.skipped, Success(Created(outZipPath)))
  }

  /** `Zipper::zipDir($sourcePath, $outZipPath)`, `listing` being what `readdir` yields in the source directory. */
  function ZipDir(cfg: Config, sourcePath: string, outZipPath: string, listing: seq<Node>): PackRun {
    Pack(cfg, sourcePath, outZipPath, listing, ExclusiveLength(sourcePath))
  }

  /**
   The top of a run: the marker for the directory's own name comes first
   exactly when the source is not "."; the rest is the walk's output with
   every name cut by the exclusive length; the status is always success.
   */
  lemma ZipDirShape(cfg: Config, sourcePath: string, outZipPath: string, listing: seq<Node>)
    ensures ZipDir(cfg, sourcePath, outZipPath, listing).status == Success(Created(outZipPath))
    ensures ZipDir(cfg, sourcePath, outZipPath, listing).skipped ==
            FolderToZip(cfg, sourcePath, listing, ExclusiveLength(sourcePath)).skipped
    ensures var es := ZipDir(cfg, sourcePath, outZipPath, listing).entries;
            |es| > 0 && es[0] == AddEmptyDir(sourcePath, Basename(sourcePath)) <==> sourcePath != "."
    ensures sourcePath != "." ==>
            ZipDir(cfg, sourcePath, outZipPath, listing).entries ==
            [AddEmptyDir(sourcePath, Basename(sourcePath))] + FolderToZip(cfg, sourcePath, listing, ExclusiveLength(sourcePath)).entries
    ensures sourcePath == "." ==>
            ZipDir(cfg, sourcePath, outZipPath, listing).entries ==
            FolderToZip(cfg, sourcePath, listing, ExclusiveLength(sourcePath)).entries
  {
    var walked := FolderToZip(cfg, sourcePath, listing, ExclusiveLength(sourcePath));
    WalkNames(cfg, sourcePath, listing, ExclusiveLength(sourcePath));
    if sourcePath == "." && |walked.entries| > 0 {
      assert walked.entries[0] in walked.entries;
    }
  }

  /** Every name the walk of `sourcePath` emits is a visited path cut by the exclusive length. */
  lemma ZipDirNames(cfg: Config, sourcePath: string, outZipPath: string, listing: seq<Node>)
    ensures forall e :: e in ZipDir(cfg, sourcePath, outZipPath, listing).entries ==>
              e == AddEmptyDir(sourcePath, Basename(sourcePath)) || sourcePath + "/" <= e.source
    ensures forall e :: e in ZipDir(cfg, sourcePath, outZipPath, listing).entries ==>
              e == AddEmptyDir(sourcePath, Basename(sourcePath)) || e.local == Substr(e.source, ExclusiveLength(sourcePath))
  {
    WalkNames(cfg, sourcePath, listing, ExclusiveLength(sourcePath));
  }

  /** Cutting `dir/` from a path beneath `dir/name` leaves a path beginning with `name/`. */
  lemma CutBeforeName(source: string, dir: string, name: string)
    requires dir + "/" + name + "/" <= source
    ensures name + "/" <= Substr(source, |dir| + 1)
  {
    var k := |dir| + 1;
    assert source[k..k + |name| + 1] == (dir + "/" + name + "/")[k..];
  }

  /**
   When the source path is its own basename, or is exactly its dirname, a
   '/', and its basename, every archive name is the directory's own name or
   begins with it and a '/'.
   */
  lemma ZipDirUnderOwnName(cfg: Config, sourcePath: string, outZipPath: string, listing: seq<Node>)
    requires sourcePath == Basename(sourcePath) || sourcePath == Dirname(sourcePath) + "/" + Basename(sourcePath)
    ensures forall e :: e in ZipDir(cfg, sourcePath, outZipPath, listing).entries ==>
              e.local == Basename(sourcePath) || Basename(sourcePath) + "/" <= e.local
  {
    var name := Basename(sourcePath);
    var k := ExclusiveLength(sourcePath);
    ZipDirNames(cfg, sourcePath, outZipPath, listing);
    forall e | e in ZipDir(cfg, sourcePath, outZipPath, listing).entries && e.local != name
      ensures name + "/" <= e.local
    {
      if sourcePath == name {
        assert k == 0;
      } else {
        var d := Dirname(sourcePath);
        assert k == |d| + 1;
        CutBeforeName(e.source, d, name);
      }
    }
  }

  // ---------------------------------------------------------------------
  // The exclusive prefix is not always a prefix

  /** `pathinfo("a//b")`: basename "b", dirname "a". */
  lemma DoubleSlashPathInfo()
    ensures Basename("a//b") == "b" && Dirname("a//b") == "a"
  {
    var sp := "a//b";
    BasenameOfChild("a/", "b");
    assert "a/" + "/" + "b" == sp;
    TrimNoTrailingSlash(sp);
    assert sp == "a/" + ['/'] + "b";
    AfterLastOfJoin("a/", '/', "b");
    assert sp[..|sp| - 1] == "a//";
    assert TrimTrailingSlashes("a//") == "a" by {
      assert "a//"[..2] == "a/";
      assert "a/"[..1] == "a";
    }
  }

  /** The walk of "a//b" holding one file `x`, cutting two characters. */
  lemma DoubleSlashWalk()
    ensures FolderToZip(ScriptConfig, "a//b", [File("x")], 2) == Packed([AddFile("a//b/x", "/b/x")], [])
  {
    var path := "a//b/x";
    assert "a//b" + "/" + "x" == path;
    assert !Contains(path, "swiss-smile");
    assert !IsPseudo(ScriptConfig, "x");
    assert !FileExcluded(ScriptConfig, path, "x");
    assert Substr(path, 2) == "/b/x";
    assert [File("x")][1..] == [];
  }

  /**
   For "a//b" the dirname is "a", so two characters are cut from
   "a//b/x": the file lands at "/b/x", outside the "b" folder the archive
   opens with.
   */
  lemma DoubleSlashSourceMisplacesEntries()
    ensures ZipDir(ScriptConfig, "a//b", "out.zip", [File("x")]).entries ==
            [AddEmptyDir("a//b", "b"), AddFile("a//b/x", "/b/x")]
    ensures !("b/" <= "/b/x")
  {
    DoubleSlashPathInfo();
    DoubleSlashWalk();
    assert ExclusiveLength("a//b") == 2;
    assert "/b/x"[0] != "b/"[0];
  }

  /** `pathinfo("/foo")`: basename "foo", dirname "/". */
  lemma RootChildPathInfo()
    ensures Basename("/foo") == "foo" && Dirname("/foo") == "/"
  {
    var sp := "/foo";
    BasenameOfChild("", "foo");
    assert "" + "/" + "foo" == sp;
    TrimNoTrailingSlash(sp);
    assert sp == "" + ['/'] + "foo";
    AfterLastOfJoin("", '/', "foo");
    assert sp[..|sp| - 3] == "/";
    assert TrimTrailingSlashes("/") == "" by {
      assert "/"[..0] == "";
    }
  }

  /** The walk of "/foo" holding one file `x`, cutting two characters. */
  lemma RootChildWalk()
    ensures FolderToZip(ScriptConfig, "/foo", [File("x")], 2) == Packed([AddFile("/foo/x", "oo/x")], [])
  {
    var path := "/foo/x";
    assert "/foo" + "/" + "x" == path;
    assert !Contains(path, "swiss-smile");
    assert !IsPseudo(ScriptConfig, "x");
    assert !FileExcluded(ScriptConfig, path, "x");
    assert Substr(path, 2) == "oo/x";
    assert [File("x")][1..] == [];
  }

  /**
   For "/foo" the dirname is "/", and `dirname . '/'` is "//", two
   characters where the path has one before "foo": the file lands at
   "oo/x", with the first letter of the folder's name cut off.
   */
  lemma RootChildLosesFirstLetter()
    ensures ZipDir(ScriptConfig, "/foo", "out.zip", [File("x")]).entries ==
            [AddEmptyDir("/foo", "foo"), AddFile("/foo/x", "oo/x")]
    ensures !("foo/" <= "oo/x")
  {
    RootChildPathInfo();
    RootChildWalk();
    assert ExclusiveLength("/foo") == 2;
    assert "oo/x"[0] != "foo/"[0];
  }

  /** The number of characters before the source directory's own name. */
  function NameOffset(sourcePath: string): nat {
    BasenameFacts(sourcePath);
    |TrimTrailingSlashes(sourcePath)| - |Basename(sourcePath)|
  }

  /** `zipDir` with the exclusive prefix ending where the directory's own name begins. */
  function ZipDirFixed(cfg: Config, sourcePath: string, outZipPath: string, listing: seq<Node>): PackRun {
    Pack(cfg, sourcePath, outZipPath, listing, NameOffset(sourcePath))
  }

  /**
   Cutting everything before `name` from a path beneath `sp`, where `sp` is
   `t` followed by slashes only and `t` ends in `name`, leaves a path
   beginning with `name/`.
   */
  lemma CutAtName(source: string, sp: string, t: string, name: string)
    requires t <= sp && |name| <= |t| && t[|t| - |name|..] == name
    requires forall i :: |t| <= i < |sp| ==> sp[i] == '/'
    requires sp + "/" <= source
    ensures name + "/" <= Substr(source, |t| - |name|)
  {
    var k := |t| - |name|;
    assert source[k..|t|] == name;
    assert source[|t|] == '/' by {
      if |t| < |sp| {
        assert source[|t|] == sp[|t|];
      } else {
        assert source[|sp|] == (sp + "/")[|sp|];
      }
    }
    assert source[k..|t| + 1] == name + "/";
  }

  /**
   With the prefix cut where the directory's name begins, every archive
   name is that name or begins with it and a '/', for every source path.
   */
  lemma ZipDirFixedUnderOwnName(cfg: Config, sourcePath: string, outZipPath: string, listing: seq<Node>)
    ensures forall e :: e in ZipDirFixed(cfg, sourcePath, outZipPath, listing).entries ==>
              e.local == Basename(sourcePath) || Basename(sourcePath) + "/" <= e.local
  {
    var name := Basename(sourcePath);
    var t := TrimTrailingSlashes(sourcePath);
    BasenameFacts(sourcePath);
    AfterLastFacts(t, '/');
    TrimFacts(sourcePath);
    var k := |t| - |name|;
    assert NameOffset(sourcePath) == k;
    var es := Pack(cfg, sourcePath, outZipPath, listing, k).entries;
    PackEntries(cfg, sourcePath, outZipPath, listing, k);
    forall e | e in es && e.local != name
      ensures name + "/" <= e.local
    {
      assert sourcePath + "/" <= e.source && e.local == Substr(e.source, k);
      CutAtName(e.source, sourcePath, t, name);
    }
  }

  /** Where the original is right, the fixed offset is the one it computes. */
  lemma FixedAgreesWithOriginal(sourcePath: string)
    requires sourcePath == Basename(sourcePath) ||
             (sourcePath == Dirname(sourcePath) + "/" + Basename(sourcePath) && Basename(sourcePath) != "")
    ensures NameOffset(sourcePath) == ExclusiveLength(sourcePath)
  {
    var name := Basename(sourcePath);
    BasenameFacts(sourcePath);
    if sourcePath == name {
      assert '/' !in sourcePath;
      TrimNoTrailingSlash(sourcePath);
    } else {
      assert sourcePath[|sourcePath| - 1] == name[|name| - 1];
      TrimNoTrailingSlash(sourcePath);
    }
  }

  // ---------------------------------------------------------------------
  // A worked example

  /** The exclusions of the worked example below. */
  const SiteConfig := Config("swiss-smile", ["./site/a.txt"], ["./site/cache"], "unzipper.php")

  /** The walk of the worked example, entry by entry. */
  lemma SiteWalk()
    ensures FolderToZip(SiteConfig, "./site", [File("a.txt"), Dir("cache", [File("x.tmp")]), Dir("logs", [])], 2) ==
            Packed([AddEmptyDir("./site/logs", "site/logs")], ["./site/a.txt", "./site/cache"])
  {
    var cfg := SiteConfig;
    var listing := [File("a.txt"), Dir("cache", [File("x.tmp")]), Dir("logs", [])];
    assert Visit(cfg, "./site", File("a.txt"), 2) == Packed([], ["./site/a.txt"]) by {
      assert "./site" + "/" + "a.txt" == "./site/a.txt";
      assert FileExcluded(cfg, "./site/a.txt", "a.txt");
    }
    assert Visit(cfg, "./site", Dir("cache", [File("x.tmp")]), 2) == Packed([], ["./site/cache"]) by {
      assert "./site" + "/" + "cache" == "./site/cache";
      assert DirExcluded(cfg, "./site/cache");
    }
    assert Visit(cfg, "./site", Dir("logs", []), 2) == Packed([AddEmptyDir("./site/logs", "site/logs")], []) by {
      assert "./site" + "/" + "logs" == "./site/logs";
      assert !DirExcluded(cfg, "./site/logs");
      assert Substr("./site/logs", 2) == "site/logs";
      assert FolderToZip(cfg, "./site/logs", [], 2) == Nothing;
    }
    assert listing[1..] == [Dir("cache", [File("x.tmp")]), Dir("logs", [])];
    assert listing[1..][1..] == [Dir("logs", [])];
    assert listing[1..][1..][1..] == [];
  }

  /**
   Packing "./site" holding `a.txt`, `cache/x.tmp` and an empty `logs`, with
   `./site/a.txt` and `./site/cache` listed: the archive holds the "site"
   marker and the "site/logs" marker only, and both exclusions are recorded
   in visiting order.
   */
  lemma SiteExample()
    ensures ZipDir(SiteConfig, "./site", "out.zip", [File("a.txt"), Dir("cache", [File("x.tmp")]), Dir("logs", [])]) ==
            PackRun([AddEmptyDir("./site", "site"), AddEmptyDir("./site/logs", "site/logs")],
                    ["./site/a.txt", "./site/cache"],
                    Success(Created("out.zip")))
  {
    DirnameBasenameOfJoin(".", "site");
    assert "." + "/" + "site" == "./site";
    assert ExclusiveLength("./site") == 2;
    SiteWalk();
    var listing := [File("a.txt"), Dir("cache", [File("x.tmp")]), Dir("logs", [])];
    var walked := FolderToZip(SiteConfig, "./site", listing, 2);
    assert ZipDir(SiteConfig, "./site", "out.zip", listing) ==
           PackRun([AddEmptyDir("./site", "site")] + walked.entries, walked.skipped, Success(Created("out.zip")));
  }
}

=== FILE: zipper_paths.dfy ===
/**
 What the packer's walk guarantees about the paths it emits, stated over
 the whole tree: every archive name is the visited path with the exclusive
 prefix cut off, every emitted entry passed the exclusion rules and every
 skipped path failed one, nothing beneath a listed directory appears, and a
 directory's marker follows everything its subtree produced.
 */
module ZipperPaths {
  import opened PhpStrings
  import opened ZipperWalk

  /** A `readdir` name: non-empty and free of '/'. */
  predicate ValidName(f: string) {
    f != "" && '/' !in f
  }

  /**
   What the filesystem guarantees of a tree: every name is a valid name and
   the names within one directory are distinct.
   */
  predicate WellFormed(children: seq<Node>)
    decreases children
  {
    && (forall i :: 0 <= i < |children| ==> ValidName(children[i].name))
    && (forall i, j :: 0 <= i < j < |children| ==> children[i].name != children[j].name)
    && (forall i :: 0 <= i < |children| ==> children[i].Dir? ==> WellFormed(children[i].children))
  }

  /** `p` is the path `dir` itself or lies beneath it. */
  predicate Within(p: string, dir: string) {
    p == dir || dir + "/" <= p
  }

  // ---------------------------------------------------------------------
  // Path facts

  lemma PrefixTrans(a: string, b: string, c: string)
    requires a <= b && b <= c
    ensures a <= c
  {
  }

  /** A path beneath `folder` that is shorter than `folder/f` is not a directory prefix of it. */
  lemma ShorterIsNotParent(folder: string, f: string, d: string)
    requires ValidName(f) && folder + "/" <= d && |d| < |folder + "/" + f|
    ensures !(d + "/" <= folder + "/" + f)
  {
    var path := folder + "/" + f;
    assert path[|d|] == f[|d| - |folder| - 1];
    assert (d + "/")[|d|] == '/';
  }

  /**
   A directory path `d` beneath `folder` whose subtree contains a path
   within `folder/f` is either `folder/f` itself or lies beneath it.
   */
  lemma ChildPrefixCases(folder: string, f: string, d: string, p: string)
    requires ValidName(f)
    requires Within(p, folder + "/" + f)
    requires folder + "/" <= d
    ensures d + "/" <= p ==> d == folder + "/" + f || folder + "/" + f + "/" <= d
  {
    var path := folder + "/" + f;
    if d + "/" <= p {
      assert path <= p;
      if |d| < |path| {
        ShorterIsNotParent(folder, f, d);
      }
      assert |d| == |path| ==> d == p[..|d|] == path;
      assert |d| > |path| ==> d[..|path| + 1] == p[..|path| + 1] == path + "/";
    }
  }

  /** A path below a path within `dir` is itself within `dir`. */
  lemma WithinTrans(p: string, q: string, dir: string)
    requires Within(q, dir)
    ensures q + "/" <= p ==> Within(p, dir)
  {
    if q + "/" <= p && q != dir {
      PrefixTrans(dir + "/", q, q + "/");
      PrefixTrans(dir + "/", q + "/", p);
    }
  }

  /** Paths within two different children of one folder are different paths. */
  lemma SiblingsDisjoint(folder: string, f: string, g: string, p: string)
    requires ValidName(f) && ValidName(g) && f != g
    requires Within(p, folder + "/" + f)
    ensures !Within(p, folder + "/" + g)
  {
    var pf := folder + "/" + f;
    var pg := folder + "/" + g;
    var n := |folder| + 1;
    assert pf <= p;
    assert |f| < |g| ==> pg[|pf|] == g[|f|] && (pf + "/")[|pf|] == '/';
    assert |g| < |f| ==> pf[|pg|] == f[|g|] && (pg + "/")[|pg|] == '/';
    assert |f| == |g| ==> pf[n..] == f && pg[n..] == g;
  }

  // ---------------------------------------------------------------------
  // Archive names

  /** Everything one entry of `folder` produces is within `folder/name`, and named by cutting `excl` characters. */
  lemma {:induction false} VisitNames(cfg: Config, folder: string, node: Node, excl: nat)
    ensures var out := Visit(cfg, folder, node, excl);
            var path := folder + "/" + node.name;
            && (forall e :: e in out.entries ==> Within(e.source, path) && e.local == Substr(e.source, excl))
            && (forall s :: s in out.skipped ==> Within(s, path))
    decreases node
  {
    if !IsPseudo(cfg, node.name) && node.Dir? && !DirExcluded(cfg, folder + "/" + node.name) {
      var path := folder + "/" + node.name;
      WalkNames(cfg, path, node.children, excl);
    }
  }

  /**
   Every archive name the walk emits, for a file or an empty directory, is
   the visited path `folder/.../f` with its first `excl` characters removed;
   every visited path, emitted or skipped, lies beneath `folder`.
   */
  lemma {:induction false} WalkNames(cfg: Config, folder: string, children: seq<Node>, excl: nat)
    ensures forall e :: e in FolderToZip(cfg, folder, children, excl).entries ==> folder + "/" <= e.source
    ensures forall e :: e in FolderToZip(cfg, folder, children, excl).entries ==> e.local == Substr(e.source, excl)
    ensures forall s :: s in FolderToZip(cfg, folder, children, excl).skipped ==> folder + "/" <= s
    decreases children
  {
    if children != [] {
      VisitNames(cfg, folder, children[0], excl);
      WalkNames(cfg, folder, children[1..], excl);
      var path := folder + "/" + children[0].name;
      var head := Visit(cfg, folder, children[0], excl);
      assert folder + "/" <= path;
      forall p | Within(p, path) ensures folder + "/" <= p {
        PrefixTrans(folder + "/", path, p);
      }
      forall e | e in head.entries ensures folder + "/" <= e.source {
        assert Within(e.source, path);
      }
      forall s | s in head.skipped ensures folder + "/" <= s {
        assert Within(s, path);
      }
      var out := FolderToZip(cfg, folder, children, excl);
      var tail := FolderToZip(cfg, folder, children[1..], excl);
      assert out.entries == head.entries + tail.entries;
      assert out.skipped == head.skipped + tail.skipped;
    }
  }

  // ---------------------------------------------------------------------
  // Exclusion rules, at every depth

  lemma WellFormedTail(children: seq<Node>)
    requires WellFormed(children) && children != []
    ensures WellFormed(children[1..])
    ensures forall i :: 0 <= i < |children[1..]| ==> children[1..][i].name != children[0].name
  {
    var t := children[1..];
    forall i | 0 <= i < |t| ensures ValidName(t[i].name) && (t[i].Dir? ==> WellFormed(t[i].children)) {
      assert t[i] == children[i + 1];
    }
    forall i, j | 0 <= i < j < |t| ensures t[i].name != t[j].name {
      assert t[i] == children[i + 1] && t[j] == children[j + 1];
    }
    forall i | 0 <= i < |t| ensures t[i].name != children[0].name {
      assert t[i] == children[i + 1];
    }
  }

  lemma {:induction false} VisitFilters(cfg: Config, folder: string, node: Node, excl: nat)
    requires ValidName(node.name) && (node.Dir? ==> WellFormed(node.children))
    ensures forall e :: e in Visit(cfg, folder, node, excl).entries ==>
              !IsPseudo(cfg, Basename(e.source)) &&
              (e.AddFile? ==> !FileExcluded(cfg, e.source, Basename(e.source))) &&
              (e.AddEmptyDir? ==> !DirExcluded(cfg, e.source))
    ensures forall s :: s in Visit(cfg, folder, node, excl).skipped ==>
              !IsPseudo(cfg, Basename(s)) && (FileExcluded(cfg, s, Basename(s)) || DirExcluded(cfg, s))
    decreases node
  {
    var path := folder + "/" + node.name;
    var out := Visit(cfg, folder, node, excl);
    BasenameOfChild(folder, node.name);
    if IsPseudo(cfg, node.name) {
      assert out == Nothing;
    } else {
      match node
      case File(f) =>
        if FileExcluded(cfg, path, f) {
          assert out == Packed([], [path]);
        } else {
          assert out == Packed([AddFile(path, Substr(path, excl))], []);
        }
      case Dir(f, sub) =>
        if DirExcluded(cfg, path) {
          assert out == Packed([], [path]);
        } else {
          var inner := FolderToZip(cfg, path, sub, excl);
          WalkFilters(cfg, path, sub, excl);
          assert out == Packed(inner.entries + [AddEmptyDir(path, Substr(path, excl))], inner.skipped);
        }
      case Other(_) =>
        assert out == Nothing;
    }
  }

  /**
   At every depth of a well-formed tree: a file reaches the archive only if
   no file rule applies to it, a directory marker only if its path is not
   listed, every skipped path is one a rule applies to, and no entry or
   skipped path has `.`, `..` or the script as its last component.
   */
  lemma {:induction false} WalkFilters(cfg: Config, folder: string, children: seq<Node>, excl: nat)
    requires WellFormed(children)
    ensures forall e :: e in FolderToZip(cfg, folder, children, excl).entries ==>
              !IsPseudo(cfg, Basename(e.source)) &&
              (e.AddFile? ==> !FileExcluded(cfg, e.source, Basename(e.source))) &&
              (e.AddEmptyDir? ==> !DirExcluded(cfg, e.source))
    ensures forall s :: s in FolderToZip(cfg, folder, children, excl).skipped ==>
              !IsPseudo(cfg, Basename(s)) && (FileExcluded(cfg, s, Basename(s)) || DirExcluded(cfg, s))
    decreases children
  {
    if children != [] {
      VisitFilters(cfg, folder, children[0], excl);
      WellFormedTail(children);
      WalkFilters(cfg, folder, children[1..], excl);
    }
  }

  lemma {:induction false} VisitAvoidsSkippedDirs(cfg: Config, folder: string, node: Node, excl: nat)
    requires ValidName(node.name) && (node.Dir? ==> WellFormed(node.children))
    ensures forall d, e :: d in cfg.skipDir && folder + "/" <= d && e in Visit(cfg, folder, node, excl).entries ==>
              !(d + "/" <= e.source)
    ensures forall d, s :: d in cfg.skipDir && folder + "/" <= d && s in Visit(cfg, folder, node, excl).skipped ==>
              !(d + "/" <= s)
    decreases node
  {
    var path := folder + "/" + node.name;
    var out := Visit(cfg, folder, node, excl);
    VisitNames(cfg, folder, node, excl);
    if !IsPseudo(cfg, node.name) && node.Dir? && !DirExcluded(cfg, path) {
      WalkAvoidsSkippedDirs(cfg, path, node.children, excl);
    }
    forall d, e | d in cfg.skipDir && folder + "/" <= d && e in out.entries
      ensures !(d + "/" <= e.source)
    {
      ChildPrefixCases(folder, node.name, d, e.source);
    }
    forall d, s | d in cfg.skipDir && folder + "/" <= d && s in out.skipped
      ensures !(d + "/" <= s)
    {
      ChildPrefixCases(folder, node.name, d, s);
    }
  }

  /**
   Nothing beneath a listed directory is ever visited: for every listed
   path `d` below the walk root, no archive entry and no skipped record
   lies beneath `d`. (The walk root itself is never tested against the list.)
   */
  lemma {:induction false} WalkAvoidsSkippedDirs(cfg: Config, folder: string, children: seq<Node>, excl: nat)
    requires WellFormed(children)
    ensures forall d, e :: d in cfg.skipDir && folder + "/" <= d && e in FolderToZip(cfg, folder, children, excl).entries ==>
              !(d + "/" <= e.source)
    ensures forall d, s :: d in cfg.skipDir && folder + "/" <= d && s in FolderToZip(cfg, folder, children, excl).skipped ==>
              !(d + "/" <= s)
    decreases children
  {
    if children != [] {
      VisitAvoidsSkippedDirs(cfg, folder, children[0], excl);
      WellFormedTail(children);
      WalkAvoidsSkippedDirs(cfg, folder, children[1..], excl);
    }
  }

  // ---------------------------------------------------------------------
  // Marker order

  /** Every empty-directory marker comes after every entry that lies beneath its directory. */
  ghost predicate MarkersAfterContents(es: seq<Entry>) {
    forall i, j :: 0 <= i < |es| && 0 <= j < |es| && es[j].AddEmptyDir? && es[j].source + "/" <= es[i].source ==>
      i < j
  }

  /** Joining two runs keeps markers last when no entry of the second run lies beneath a marker of the first. */
  lemma MarkersConcat(h: seq<Entry>, t: seq<Entry>)
    requires MarkersAfterContents(h) && MarkersAfterContents(t)
    requires forall i, j :: 0 <= i < |t| && 0 <= j < |h| && h[j].AddEmptyDir? ==> !(h[j].source + "/" <= t[i].source)
    ensures MarkersAfterContents(h + t)
  {
    var es := h + t;
    forall i, j | 0 <= i < |es| && 0 <= j < |es| && es[j].AddEmptyDir? && es[j].source + "/" <= es[i].source
      ensures i < j
    {
      if j < |h| && i < |h| {
        assert es[j] == h[j] && es[i] == h[i];
      } else if i >= |h| {
        assert es[j] == t[j - |h|] && es[i] == t[i - |h|];
      }
    }
  }

  /** No entry produced for the other children of `folder` lies within `folder/g`. */
  lemma {:induction false} NotWithinAbsentChild(cfg: Config, folder: string, children: seq<Node>, g: string, excl: nat)
    requires WellFormed(children) && ValidName(g)
    requires forall i :: 0 <= i < |children| ==> children[i].name != g
    ensures forall e :: e in FolderToZip(cfg, folder, children, excl).entries ==> !Within(e.source, folder + "/" + g)
    decreases children
  {
    if children != [] {
      var c := children[0].name;
      VisitNames(cfg, folder, children[0], excl);
      forall e | e in Visit(cfg, folder, children[0], excl).entries
        ensures !Within(e.source, folder + "/" + g)
      {
        SiblingsDisjoint(folder, c, g, e.source);
      }
      WellFormedTail(children);
      assert forall i :: 0 <= i < |children[1..]| ==> children[1..][i].name != g;
      NotWithinAbsentChild(cfg, folder, children[1..], g, excl);
    }
  }

  lemma {:induction false} VisitMarkers(cfg: Config, folder: string, node: Node, excl: nat)
    requires ValidName(node.name) && (node.Dir? ==> WellFormed(node.children))
    ensures MarkersAfterContents(Visit(cfg, folder, node, excl).entries)
    decreases node
  {
    var path := folder + "/" + node.name;
    if !IsPseudo(cfg, node.name) && node.Dir? && !DirExcluded(cfg, path) {
      var inner := FolderToZip(cfg, path, node.children, excl);
      var marker := [AddEmptyDir(path, Substr(path, excl))];
      WalkMarkers(cfg, path, node.children, excl);
      WalkNames(cfg, path, node.children, excl);
      forall i, j | 0 <= i < |marker| && 0 <= j < |inner.entries| && inner.entries[j].AddEmptyDir?
        ensures !(inner.entries[j].source + "/" <= marker[i].source)
      {
        assert path + "/" <= inner.entries[j].source;
      }
      MarkersConcat(inner.entries, marker);
    }
  }

  /**
   In a well-formed tree, each directory's empty-directory marker is emitted
   after every archive entry that lies beneath that directory.
   */
  lemma {:induction false} WalkMarkers(cfg: Config, folder: string, children: seq<Node>, excl: nat)
    requires WellFormed(children)
    ensures MarkersAfterContents(FolderToZip(cfg, folder, children, excl).entries)
    decreases children
  {
    if children != [] {
      var c := children[0].name;
      var path := folder + "/" + c;
      var h := Visit(cfg, folder, children[0], excl).entries;
      var t := FolderToZip(cfg, folder, children[1..], excl).entries;
      VisitMarkers(cfg, folder, children[0], excl);
      VisitNames(cfg, folder, children[0], excl);
      WellFormedTail(children);
      WalkMarkers(cfg, folder, children[1..], excl);
      NotWithinAbsentChild(cfg, folder, children[1..], c, excl);
      forall i, j | 0 <= i < |t| && 0 <= j < |h| && h[j].AddEmptyDir?
        ensures !(h[j].source + "/" <= t[i].source)
      {
        assert h[j] in h && t[i] in t;
        WithinTrans(t[i].source, h[j].source, path);
      }
      MarkersConcat(h, t);
    }
  }
}

=== FILE: zipper_walk.dfy ===
/**
 The recursive directory walk of the packer (`Zipper::folderToZip`). The
 filesystem is a tree given up front: each directory lists its entries in
 the order `readdir` returns them, pseudo-entries included. The walk returns
 the archive calls it makes and the paths it records as skipped, in order.
 */
module ZipperWalk {
  import opened PhpStrings

  /** One `readdir` entry: a regular file, a directory, or something that is neither. */
  datatype Node =
    | File(name: string)
    | Dir(name: string, children: seq<Node>)
    | Other(name: string)

  /**
   The packer's static configuration: the output-name prefix, the exact file
   and directory paths to skip, and the script's own basename.
   */
  datatype Config = Config(prefix: string, skipFile: seq<string>, skipDir: seq<string>, script: string)

  /**
   One call on the archive being written: `addFile(source, local)` or
   `addEmptyDir(local)`. `source` is the filesystem path the entry stands for;
   `addEmptyDir` does not receive it, it is kept here to state properties.
   */
  datatype Entry =
    | AddFile(source: string, local: string)
    | AddEmptyDir(source: string, local: string)

  /** What a walk produces: archive calls and skipped paths, each in order. */
  datatype Packed = Packed(entries: seq<Entry>, skipped: seq<string>)

  const Nothing := Packed([], [])

  /** The output of one walk followed by that of another. */
  function Then(a: Packed, b: Packed): Packed {
    Packed(a.entries + b.entries, a.skipped + b.skipped)
  }

  /** `.`, `..` and the script itself are passed over without a trace. */
  predicate IsPseudo(cfg: Config, f: string) {
    f == "." || f == ".." || f == cfg.script
  }

  /** The three file rules: the output prefix occurs in the path, the path is listed, or it is `.DS_Store`. */
  predicate FileExcluded(cfg: Config, path: string, f: string) {
    Contains(path, cfg.prefix) || path in cfg.skipFile || f == ".DS_Store"
  }

  /** The directory rule: the path is listed exactly. */
  predicate DirExcluded(cfg: Config, path: string) {
    path in cfg.skipDir
  }

  /** The archive calls and skipped paths one `readdir` entry of `folder` gives rise to. */
  function Visit(cfg: Config, folder: string, node: Node, excl: nat): Packed
    decreases node
  {
    if IsPseudo(cfg, node.name) then Nothing
    else
      var path := folder + "/" + node.name;
      match node
      case File(f) =>
        if FileExcluded(cfg, path, f) then Packed([], [path])
        else Packed([AddFile(path, Substr(path, excl))], [])
      case Dir(_, sub) =>
        if DirExcluded(cfg, path) then Packed([], [path])
        else
          var inner := FolderToZip(cfg, path, sub, excl);
          Packed(inner.entries + [AddEmptyDir(path, Substr(path, excl))], inner.skipped)
      case Other(_) => Nothing
  }

  /** `folderToZip($folder, $zip, $excl)` over the entries of `folder`, in enumeration order. */
  function FolderToZip(cfg: Config, folder: string, children: seq<Node>, excl: nat): Packed
    decreases children
  {
    if children == [] then Nothing
    else Then(Visit(cfg, folder, children[0], excl), FolderToZip(cfg, folder, children[1..], excl))
  }

  // ---------------------------------------------------------------------
  // Enumeration order

  lemma ThenAssoc(x: Packed, y: Packed, z: Packed)
    ensures Then(Then(x, y), z) == Then(x, Then(y, z))
  {
    assert (x.entries + y.entries) + z.entries == x.entries + (y.entries + z.entries);
    assert (x.skipped + y.skipped) + z.skipped == x.skipped + (y.skipped + z.skipped);
  }

  lemma ThenNothing(x: Packed)
    ensures Then(Nothing, x) == x && Then(x, Nothing) == x
  {
    assert [] + x.entries == x.entries && x.entries + [] == x.entries;
    assert [] + x.skipped == x.skipped && x.skipped + [] == x.skipped;
  }

  /** The walk over two runs of entries is the walk over the first, then over the second. */
  lemma {:induction false} WalkConcat(cfg: Config, folder: string, a: seq<Node>, b: seq<Node>, excl: nat)
    ensures FolderToZip(cfg, folder, a + b, excl) ==
            Then(FolderToZip(cfg, folder, a, excl), FolderToZip(cfg, folder, b, excl))
    decreases a
  {
    if a == [] {
      assert a + b == b;
      ThenNothing(FolderToZip(cfg, folder, b, excl));
    } else {
      var head := Visit(cfg, folder, a[0], excl);
      assert (a + b)[0] == a[0];
      assert (a + b)[1..] == a[1..] + b;
      WalkConcat(cfg, folder, a[1..], b, excl);
      ThenAssoc(head, FolderToZip(cfg, folder, a[1..], excl), FolderToZip(cfg, folder, b, excl));
    }
  }

  /** The walk over a single entry is that entry's visit. */
  lemma WalkOne(cfg: Config, folder: string, node: Node, excl: nat)
    ensures FolderToZip(cfg, folder, [node], excl) == Visit(cfg, folder, node, excl)
  {
    assert [node][0] == node;
    assert [node][1..] == [];
    ThenNothing(Visit(cfg, folder, node, excl));
  }

  lemma ThenAround(pre: Packed, v: Packed, post: Packed)
    ensures Then(pre, Then(v, post)).entries == pre.entries + v.entries + post.entries
    ensures Then(pre, Then(v, post)).skipped == pre.skipped + v.skipped + post.skipped
  {
    assert pre.entries + (v.entries + post.entries) == pre.entries + v.entries + post.entries;
    assert pre.skipped + (v.skipped + post.skipped) == pre.skipped + v.skipped + post.skipped;
  }

  /** The walk over `before`, one entry, then `after`. */
  lemma AroundOne(cfg: Config, folder: string, before: seq<Node>, node: Node, after: seq<Node>, excl: nat)
    ensures FolderToZip(cfg, folder, before + [node] + after, excl) ==
            Then(FolderToZip(cfg, folder, before, excl),
                 Then(Visit(cfg, folder, node, excl), FolderToZip(cfg, folder, after, excl)))
  {
    WalkConcat(cfg, folder, before + [node], after, excl);
    WalkConcat(cfg, folder, before, [node], excl);
    WalkOne(cfg, folder, node, excl);
    ThenAssoc(FolderToZip(cfg, folder, before, excl), Visit(cfg, folder, node, excl), FolderToZip(cfg, folder, after, excl));
  }

  // ---------------------------------------------------------------------
  // The per-entry rules, at any position of a directory listing

  /**
   `.`, `..`, the script itself and entries that are neither file nor
   directory leave no archive call and no skipped record.
   */
  lemma SilentEntry(cfg: Config, folder: string, before: seq<Node>, node: Node, after: seq<Node>, excl: nat)
    requires IsPseudo(cfg, node.name) || node.Other?
    ensures FolderToZip(cfg, folder, before + [node] + after, excl) ==
            Then(FolderToZip(cfg, folder, before, excl), FolderToZip(cfg, folder, after, excl))
  {
    AroundOne(cfg, folder, before, node, after, excl);
    assert Visit(cfg, folder, node, excl) == Nothing;
    ThenNothing(FolderToZip(cfg, folder, after, excl));
  }

  /**
   A file is added under its stripped path exactly when none of the three
   file rules applies; otherwise its path is recorded as skipped, once.
   */
  lemma FileRule(cfg: Config, folder: string, before: seq<Node>, f: string, after: seq<Node>, excl: nat)
    requires !IsPseudo(cfg, f)
    ensures FileExcluded(cfg, folder + "/" + f, f) ==>
              FolderToZip(cfg, folder, before + [File(f)] + after, excl).entries ==
              FolderToZip(cfg, folder, before, excl).entries + FolderToZip(cfg, folder, after, excl).entries
    ensures FileExcluded(cfg, folder + "/" + f, f) ==>
              FolderToZip(cfg, folder, before + [File(f)] + after, excl).skipped ==
              FolderToZip(cfg, folder, before, excl).skipped + [folder + "/" + f] + FolderToZip(cfg, folder, after, excl).skipped
    ensures !FileExcluded(cfg, folder + "/" + f, f) ==>
              FolderToZip(cfg, folder, before + [File(f)] + after, excl).entries ==
              FolderToZip(cfg, folder, before, excl).entries + [AddFile(folder + "/" + f, Substr(folder + "/" + f, excl))] +
              FolderToZip(cfg, folder, after, excl).entries
    ensures !FileExcluded(cfg, folder + "/" + f, f) ==>
              FolderToZip(cfg, folder, before + [File(f)] + after, excl).skipped ==
              FolderToZip(cfg, folder, before, excl).skipped + FolderToZip(cfg, folder, after, excl).skipped
  {
    if FileExcluded(cfg, folder + "/" + f, f) {
      ExcludedFile(cfg, folder, before, f, after, excl);
    } else {
      KeptFile(cfg, folder, before, f, after, excl);
    }
  }

  lemma ExcludedFile(cfg: Config, folder: string, before: seq<Node>, f: string, after: seq<Node>, excl: nat)
    requires !IsPseudo(cfg, f) && FileExcluded(cfg, folder + "/" + f, f)
    ensures FolderToZip(cfg, folder, before + [File(f)] + after, excl).entries ==
            FolderToZip(cfg, folder, before, excl).entries + FolderToZip(cfg, folder, after, excl).entries
    ensures FolderToZip(cfg, folder, before + [File(f)] + after, excl).skipped ==
            FolderToZip(cfg, folder, before, excl).skipped + [folder + "/" + f] + FolderToZip(cfg, folder, after, excl).skipped
  {
    var path := folder + "/" + f;
    var pre := FolderToZip(cfg, folder, before, excl);
    var post := FolderToZip(cfg, folder, after, excl);
    AroundOne(cfg, folder, before, File(f), after, excl);
    assert Visit(cfg, folder, File(f), excl) == Packed([], [path]);
    ThenAround(pre, Packed([], [path]), post);
    assert pre.entries + [] + post.entries == pre.entries + post.entries;
  }

  lemma KeptFile(cfg: Config, folder: string, before: seq<Node>, f: string, after: seq<Node>, excl: nat)
    requires !IsPseudo(cfg, f) && !FileExcluded(cfg, folder + "/" + f, f)
    ensures FolderToZip(cfg, folder, before + [File(f)] + after, excl).entries ==
            FolderToZip(cfg, folder, before, excl).entries + [AddFile(folder + "/" + f, Substr(folder + "/" + f, excl))] +
            FolderToZip(cfg, folder, after, excl).entries
    ensures FolderToZip(cfg, folder, before + [File(f)] + after, excl).skipped ==
            FolderToZip(cfg, folder, before, excl).skipped + FolderToZip(cfg, folder, after, excl).skipped
  {
    var path := folder + "/" + f;
    var pre := FolderToZip(cfg, folder, before, excl);
    var post := FolderToZip(cfg, folder, after, excl);
    var e := AddFile(path, Substr(path, excl));
    AroundOne(cfg, folder, before, File(f), after, excl);
    assert Visit(cfg, folder, File(f), excl) == Packed([e], []);
    ThenAround(pre, Packed([e], []), post);
    assert pre.skipped + [] + post.skipped == pre.skipped + post.skipped;
  }

  /**
   A listed directory is recorded as skipped, once, and contributes nothing
   else: neither its own marker nor anything from its subtree, whatever the
   subtree holds.
   */
  lemma SkippedDirRule(cfg: Config, folder: string, before: seq<Node>, f: string, sub: seq<Node>,
                       after: seq<Node>, excl: nat)
    requires !IsPseudo(cfg, f) && DirExcluded(cfg, folder + "/" + f)
    ensures var out := FolderToZip(cfg, folder, before + [Dir(f, sub)] + after, excl);
            var pre := FolderToZip(cfg, folder, before, excl);
            var post := FolderToZip(cfg, folder, after, excl);
            out.entries == pre.entries + post.entries &&
            out.skipped == pre.skipped + [folder + "/" + f] + post.skipped
  {
    var v := Visit(cfg, folder, Dir(f, sub), excl);
    AroundOne(cfg, folder, before, Dir(f, sub), after, excl);
    ThenAround(FolderToZip(cfg, folder, before, excl), v, FolderToZip(cfg, folder, after, excl));
    assert v == Packed([], [folder + "/" + f]);
  }

  /**
   A directory that is not listed is walked first; its empty-directory
   marker follows everything its subtree produced.
   */
  lemma KeptDirRule(cfg: Config, folder: string, before: seq<Node>, f: string, sub: seq<Node>,
                    after: seq<Node>, excl: nat)
    requires !IsPseudo(cfg, f) && !DirExcluded(cfg, folder + "/" + f)
    ensures var path := folder + "/" + f;
            var out := FolderToZip(cfg, folder, before + [Dir(f, sub)] + after, excl);
            var pre := FolderToZip(cfg, folder, before, excl);
            var inner := FolderToZip(cfg, path, sub, excl);
            var post := FolderToZip(cfg, folder, after, excl);
            out.entries == pre.entries + inner.entries + [AddEmptyDir(path, Substr(path, excl))] + post.entries &&
            out.skipped == pre.skipped + inner.skipped + post.skipped
  {
    var path := folder + "/" + f;
    var v := Visit(cfg, folder, Dir(f, sub), excl);
    var inner := FolderToZip(cfg, path, sub, excl);
    AroundOne(cfg, folder, before, Dir(f, sub), after, excl);
    ThenAround(FolderToZip(cfg, folder, before, excl), v, FolderToZip(cfg, folder, after, excl));
    assert v == Packed(inner.entries + [AddEmptyDir(path, Substr(path, excl))], inner.skipped);
  }

  // ---------------------------------------------------------------------
  // Pseudo-entries at every depth

  /** The tree with `.`, `..` and the script removed from every directory listing. */
  function PruneNode(cfg: Config, node: Node): Node
    decreases node
  {
    match node
    case Dir(f, sub) => Dir(f, Prune(cfg, sub))
    case _ => node
  }

  function Prune(cfg: Config, children: seq<Node>): seq<Node>
    decreases children
  {
    if children == [] then []
    else if IsPseudo(cfg, children[0].name) then Prune(cfg, children[1..])
    else [PruneNode(cfg, children[0])] + Prune(cfg, children[1..])
  }

  /** No directory listing anywhere in the tree holds a pseudo-entry. */
  predicate NoPseudo(cfg: Config, children: seq<Node>)
    decreases children
  {
    forall i :: 0 <= i < |children| ==>
      !IsPseudo(cfg, children[i].name) && (children[i].Dir? ==> NoPseudo(cfg, children[i].children))
  }

  lemma {:induction false} PruneNodeInvisible(cfg: Config, folder: string, node: Node, excl: nat)
    requires !IsPseudo(cfg, node.name)
    ensures Visit(cfg, folder, PruneNode(cfg, node), excl) == Visit(cfg, folder, node, excl)
    ensures PruneNode(cfg, node).name == node.name
    ensures PruneNode(cfg, node).Dir? ==> NoPseudo(cfg, PruneNode(cfg, node).children)
    decreases node
  {
    match node
    case Dir(f, sub) => PruneInvisible(cfg, folder + "/" + f, sub, excl);
    case _ =>
  }

  /**
   Pseudo-entries are invisible at every depth: walking the tree gives the
   same archive calls and skipped paths as walking it with every `.`, `..`
   and script entry removed from every directory.
   */
  lemma {:induction false} PruneInvisible(cfg: Config, folder: string, children: seq<Node>, excl: nat)
    ensures FolderToZip(cfg, folder, Prune(cfg, children), excl) == FolderToZip(cfg, folder, children, excl)
    ensures NoPseudo(cfg, Prune(cfg, children))
    decreases children
  {
    if children != [] {
      PruneInvisible(cfg, folder, children[1..], excl);
      if !IsPseudo(cfg, children[0].name) {
        PruneNodeInvisible(cfg, folder, children[0], excl);
        var p := [PruneNode(cfg, children[0])] + Prune(cfg, children[1..]);
        assert p[0] == PruneNode(cfg, children[0]);
        assert p[1..] == Prune(cfg, children[1..]);
        forall i | 1 <= i < |p|
          ensures !IsPseudo(cfg, p[i].name) && (p[i].Dir? ==> NoPseudo(cfg, p[i].children))
        {
          assert p[i] == Prune(cfg, children[1..])[i - 1];
        }
      }
    }
  }
}
